=== FILE: README.md ===
# battlemap paint layer, grid and marker snap in Dafny

battlemap is a browser tool for tabletop battle maps. It shows a background image on a Leaflet map with a simple (flat) coordinate system, lays a labelled square grid over the image, lets the user drop numbered markers that snap to the centres of a square lattice counted from latitude and longitude 0 (which need not be the drawn cells; see "Markers against the grid" below), and offers a free-hand paint layer for drawing and erasing strokes.

This project models three parts of `static/js/app.js`:

- **The paint layer** (`L.PaintLayer`). The layer keeps its strokes in a list called `features`. Each feature has a style snapshot (line width, colour, erase flag) and a path of map coordinates. The last feature is the *active* stroke; mouse moves append to it. The earlier features are *sealed*.
  - `strokes.dfy` (module `Strokes`) models the layer as a pure state machine. It has one transition per handler or public method (`Step`), runs of events (`Run`), and the layer's invariant. The invariant says the list is never empty and the active stroke carries the current settings.
  - `paint_layer.dfy` (module `Layers`) models the layer as a class whose methods update its fields in place. Each method is proved to perform exactly the matching `Step` and to keep the invariant.
- **The redraw** (`onDrawLayer`). `render.dfy` (module `Render`) describes it as the list of canvas commands it issues: clear, set the compositing mode, `moveTo`/`lineTo`, stroke, and the two end-point dots. A stroke whose scaled width is negative makes the first dot's `arc` throw (a canvas rejects a negative radius). The exception leaves `onDrawLayer`, so that stroke gets no dots and the strokes after it are not drawn in that frame. The model records the exception as a final `ArcThrows` command. The class method `OnDrawLayer` and the loop body `DrawFeature` are proved to issue exactly that list.
- **The grid** (`App.prototype.drawGrid`). `grid.dfy` (module `Grid`) models the padding arithmetic, the two line loops and the nested label loops as methods. Each method is proved equal to a closed-form description: the line positions are the multiples of the cell size, and there is one label per pair of line positions, column by column. The labels name pairs of lines, not cells. A side that is a whole number of cells therefore gets one more label column (or row) than it has cells. Each label stands 16 units below the line above its own, so with cells larger than 16 units the labels of row 0 are drawn above the canvas. When the width is a multiple of the cell size, the last column's labels are drawn to the right of it.
- **The marker snap** (`addMarker` and the marker's `dragend` handler). `snap.dfy` (module `Snap`) models the snap on real numbers. JavaScript's `%` is spelled out as a truncating remainder that keeps the sign of the dividend. Snapped positions are cell centres of a lattice counted from latitude and longitude 0.
- **Markers against the grid.** `alignment.dfy` (module `Alignment`) relates the snap to the drawn grid. Column lines are drawn at longitudes that are multiples of the cell size. A non-negative snapped longitude therefore falls midway between two drawn column lines whenever the right-hand line of its cell, at (cell + 1)·c, is within the width. Otherwise it can fall past the last line: with width 750 and c = 100, longitudes in [700, 750) snap to 750, and no line is drawn at 800. Row lines are counted from the image's top edge, so a row line lies at latitude `height − k·c`. Snapped latitudes fall midway between row lines only when the height is a whole number of cells. Otherwise they can land on a row line: on a 750-high image with 100-unit cells, latitude 720 snaps onto the top line at 750.

`geo.dfy` (module `Geo`) holds the two coordinate types: `LatLng` for map coordinates and `Pixel` for container points. `seqs.dfy` (module `Seqs`) holds a general fact about sequences that the proofs share.

Two things the model takes as parameters rather than computing:

- the map projection (`latLngToContainerPoint`), as a function `LatLng -> Pixel`;
- the zoom scale (`crs.scale(getZoom())`), as a real number.

The cell size is an integer parameter; the source reads it with `parseInt` from the grid-size input.

## Model

| member | source | states |
|---|---|---|
| Strokes.MakeFeature | static/js/app.js:42-50 | a new stroke has an empty path and exactly the style of the settings it was made from (a copy, not a shared reference) |
| Strokes.Init | static/js/app.js:20-35 | a new layer holds exactly one empty stroke in the default style (width 4, black, no erase), its settings are the defaults, and it is neither painting nor pressed |
| Strokes.AppendToActive | static/js/app.js:70-75 | an accepted `mousemove` keeps the number of strokes and every sealed stroke. It adds the position at the end of the active path and leaves the active style unchanged |
| Strokes.Seal | static/js/app.js:63-69 | `mouseup` on a non-empty active stroke keeps the whole list as sealed strokes and adds one empty stroke in the given style; on an empty active stroke the list is unchanged |
| Strokes.Restyle | static/js/app.js:158-163 | restyling keeps the number of strokes, every sealed stroke and the active path |
| Strokes.Step | static/js/app.js:37-163 | one handler call. The list is never emptied. Only `enable` and `disable` change the painting flag, turning it on and off respectively. Only the three style methods change the settings. Only `mousedown` and `mouseup` change the button flag. `enable`, `disable` and `mousedown` never touch the strokes |
| Strokes.ApplyAbsentKeeps | static/js/app.js:158-163 | a settings key that `applySettings` is not given keeps its value |
| Strokes.ApplyLastWins | static/js/app.js:158-163 | a settings key that `applySettings` is given ends with the last value given for it |
| Strokes.EraseToggle | static/js/app.js:148-156 | `enableErase` and `disableErase` set the erase flag to on and off in the settings and in the active stroke. Width, colour, the active path, the sealed strokes and both flags are unchanged |
| Strokes.ClearIsFresh | static/js/app.js:37-40 | `clear` leaves exactly one empty stroke in the current style, and the layer stays valid. The settings, painting flag and button flag are unchanged |
| Strokes.StepValid | static/js/app.js:37-163 | every handler and public method keeps the invariant: the list of strokes is non-empty and the active stroke carries the current settings |
| Strokes.RunValid | static/js/app.js:37-163 | the invariant holds after any sequence of handler calls |
| Strokes.ApplyKeepsStyle | static/js/app.js:158-163 | writing the same keys into a settings record and into a stroke styled by it keeps the stroke styled by the settings |
| Strokes.SetSetting | static/js/app.js:160 | writing one entry sets its key in the settings to the entry's value and keeps the other two keys |
| Strokes.SetFeatureKey | static/js/app.js:161 | writing one entry into a stroke changes its style exactly as `SetSetting` changes a settings record, and keeps its path |
| Strokes.ApplyToSettings | static/js/app.js:159-161 | after the writes the last entry is in force: writing it once more changes nothing |
| Strokes.ApplyToFeature | static/js/app.js:159-161 | writing style entries into a stroke, one after another, never changes its path |
| Strokes.StepKeepsHistory | static/js/app.js:58-163 | apart from `clear`, no transition removes or alters a sealed stroke. The list grows by at most one, and it grows exactly when `mouseup` arrives while painting and the active path is non-empty |
| Strokes.RunKeepsHistory | static/js/app.js:58-163 | over any run without `clear`, the sealed strokes stay in place unchanged and the list never shrinks |
| Strokes.MoveGate | static/js/app.js:70-75 | `mousemove` changes the layer if and only if it is painting with the button down. It then only appends the event position to the active path. The settings, both flags, the sealed strokes and the active stroke's width, colour and erase flag are unchanged |
| Strokes.DownGate | static/js/app.js:58-62 | `mousedown` sets the button flag exactly when painting. It never touches the strokes, the settings or the painting flag |
| Strokes.IdleIgnoresButtons | static/js/app.js:58-69 | outside draw mode `mousedown` and `mouseup` leave the layer exactly as it was |
| Strokes.MouseUpSeals | static/js/app.js:63-69 | `mouseup` while painting releases the button and leaves an empty active stroke in the current style. A non-empty active stroke becomes the last sealed one; an empty one is kept and reused. The settings and the painting flag are unchanged |
| Strokes.MouseUpIdempotent | static/js/app.js:63-69 | a second `mouseup` changes nothing |
| Strokes.RestyleKeepsSealed | static/js/app.js:158-163 | `applySettings` writes every key into the settings and restyles only the active stroke. The number of strokes, the sealed strokes, the active path and both flags are unchanged, and the active stroke still matches the new settings |
| Strokes.StepActivePath | static/js/app.js:58-163 | apart from `mouseup` and `clear`, one handler call keeps the number of strokes and extends the active path by the position of an accepted `mousemove`, and by nothing otherwise |
| Strokes.ActiveCollectsMoves | static/js/app.js:58-75 | until `mouseup` or `clear`, the active path is its old value followed by exactly the positions of the accepted `mousemove` events, in arrival order |
| Strokes.DrawTwoPoints | static/js/app.js:20-75 | enable, press, move through two points, release: one sealed two-point stroke in the default style, then a fresh empty active stroke |
| Layers.PaintLayer.constructor | static/js/app.js:20-35 | `initialize` builds the initial layer state and that state is valid |
| Layers.PaintLayer.Clear | static/js/app.js:37-40 | the new state is the `clear` transition of the old one, and it is valid |
| Layers.PaintLayer.OnMouseDown | static/js/app.js:58-62 | the new state is the `mousedown` transition of the old one, and it is valid |
| Layers.PaintLayer.OnMouseUp | static/js/app.js:63-69 | the new state is the `mouseup` transition of the old one, and it is valid |
| Layers.PaintLayer.OnMouseMove | static/js/app.js:70-75 | the new state is the `mousemove` transition of the old one, and it is valid |
| Layers.PaintLayer.Enable | static/js/app.js:140-142 | the new state is the `enable` transition of the old one, and it is valid |
| Layers.PaintLayer.Disable | static/js/app.js:144-146 | the new state is the `disable` transition of the old one, and it is valid |
| Layers.PaintLayer.EnableErase | static/js/app.js:148-151 | the new state is the `enableErase` transition of the old one, and it is valid. By `EraseToggle`, that sets erase on in the settings and the active stroke and changes nothing else |
| Layers.PaintLayer.DisableErase | static/js/app.js:153-156 | the new state is the `disableErase` transition of the old one, and it is valid. By `EraseToggle`, that sets erase off in the settings and the active stroke and changes nothing else |
| Layers.PaintLayer.ApplySettings | static/js/app.js:158-163 | the key-by-key loop ends in the `applySettings` transition of the old state, which is valid |
| Layers.PaintLayer.OnDrawLayer | static/js/app.js:79-138 | a redraw issues exactly the frame of the current strokes: one clear of the canvas, then the commands of each stroke in list order, ending with the first stroke whose drawing throws |
| Render.CompositeOf | static/js/app.js:97 | a stroke is composited `destination-out` if and only if it is an erase stroke, otherwise `source-over` |
| Render.DrawFeature | static/js/app.js:85-127 | the per-feature loop body issues exactly the command list of that feature, and reports an exception exactly when the feature has points and a negative scaled width |
| Render.PathOps | static/js/app.js:104-110 | the path loop issues one command per point |
| Render.FeatureOps | static/js/app.js:88-127 | a stroke issues no command exactly when its path is empty |
| Render.Width | static/js/app.js:93 | the scaled width, and so the dot radius, is negative exactly when the stored width and the zoom scale have opposite signs |
| Render.NothingDrawn | static/js/app.js:84-137 | the feature loop issues no command exactly when no stroke has a point. The loop always reaches the first stroke with points, because the empty strokes before it are skipped and do not throw |
| Render.StopSpec | static/js/app.js:84-137 | the loop stops at the first stroke whose drawing throws: no earlier stroke throws, and the stroke at that index does unless it is the end of the list |
| Render.StopPrefix | static/js/app.js:84-137 | a prefix of the strokes that ends before the first throwing stroke has no throwing stroke |
| Render.Frame | static/js/app.js:79-82 | a frame begins with a clear of the canvas |
| Render.FrameClearsFirst | static/js/app.js:79-137 | the clear of the canvas is the first command of a frame and the only one |
| Render.ThrowStep | static/js/app.js:84-137 | when the stroke the loop has reached throws, the frame ends with that stroke's commands |
| Render.PathOpsShape | static/js/app.js:104-110 | a path of n points becomes n commands: one `moveTo` to the first point, then a `lineTo` to each later point in order; the path is not closed |
| Render.FeatureOpsShape | static/js/app.js:84-127 | characterises `FeatureOps` and its dots (`Dots`). An empty stroke issues nothing. A stroke of n points issues its compositing mode, its polyline and one stroke at width × scale in its colour. Then, if that width is not negative, it issues a dot of half the width at the first point and one at the last point (n + 4 commands). If the width is negative, the first `arc` throws instead (n + 3 commands) |
| Render.FeaturesOpsConcat | static/js/app.js:84-137 | characterises the feature loop `FeaturesOps` over a split list. If no stroke of the first part throws, the commands for a concatenated list are those of the first part followed by those of the second. If one does, they are those of the first part alone |
| Render.PaintOrder | static/js/app.js:84-137 | before the first throwing stroke, stroke i is painted after every earlier stroke and before every later one, so later strokes (erasers included) paint over earlier ones. The throwing stroke is the last one painted |
| Render.PathCounts | static/js/app.js:104-112 | the commands for a path hold no clear, no stroke and no exception, and one `moveTo` exactly when the path is non-empty |
| Render.FeatureCounts | static/js/app.js:88-127 | a stroke opens one sub-path and is stroked once when its path is non-empty, and not at all otherwise. It never clears the canvas, and it throws once exactly when it has points and a negative width |
| Render.OpsCounts | static/js/app.js:84-137 | there is one sub-path and one stroke per non-empty stroke the loop reaches: all of them, or those up to and including the first that throws. There is no clear, and one exception exactly when some stroke throws |
| Render.FrameCounts | static/js/app.js:79-138 | a frame begins with the clear and clears exactly once. It opens a sub-path for, and strokes, exactly the non-empty strokes the loop reaches, which is all of them when none throws. It holds an exception exactly when some stroke throws |
| Grid.Pad | static/js/app.js:440-448 | for every size and positive cell size the padding arithmetic yields all four paddings zero, so the lines span the full canvas |
| Grid.TicksFrom | static/js/app.js:456-459 | the loop `x += cellSize` visits nothing exactly when it starts past the limit, and otherwise its first position is x |
| Grid.TicksFromShape | static/js/app.js:456-459 | the loop `x += cellSize` from x up to the limit visits x + k·cellSize for k = 0 … (limit − x) / cellSize, and nothing when it starts past the limit |
| Grid.Ticks | static/js/app.js:456-463 | along every side, the line at 0 is drawn |
| Grid.Verticals | static/js/app.js:456-459 | one vertical segment per x position, at that x, running from the top (0) to the full canvas height |
| Grid.Horizontals | static/js/app.js:460-463 | one horizontal segment per y position, at that y, running from the left edge (0) to the full canvas width |
| Grid.TicksShape | static/js/app.js:456-463 | the line positions along a side are 0, c, 2c, … up to the largest multiple of c not beyond the side length, with one more than side / c of them |
| Grid.TicksAreMultiples | static/js/app.js:456-463 | a value is a line position if and only if it lies between 0 and the side length inclusive and is a multiple of the cell size |
| Grid.DefaultGrid | static/js/app.js:430 | with no bounds the canvas is 20 cells square, giving 21 line positions per side at 0, c, …, 20c |
| Grid.Column | static/js/app.js:469-475 | a column has one label per row line position, and label j names the pair (cx, j) |
| Grid.Labels | static/js/app.js:466-477 | every label names a pair of line positions: its column index is below the number of x positions and its row index below the number of y positions |
| Grid.ColumnShape | static/js/app.js:469-475 | a column has one label per row line position, and label j names the pair (cx, j) and stands 4 right of the column line and c − 16 above row line j |
| Grid.LabelsLength | static/js/app.js:466-477 | there is one label per pair of an x line position and a y line position |
| Grid.LabelAt | static/js/app.js:466-477 | the label of the pair (i, j) is at position i·rows + j, at (x_i + 4, y_j − c + 16) |
| Grid.LabelsShape | static/js/app.js:466-477 | labels run column by column: label q names the pair (q / rows, q mod rows) and stands 4 right of its column line and c − 16 above its row line |
| Grid.DrawGrid | static/js/app.js:427-484 | the canvas takes its size from the far corner of the bounds, or 20 cells square without bounds. The lines are the verticals then the horizontals at the line positions, and there is one label per pair of line positions, column by column |
| Grid.DefaultLabelsOverhang | static/js/app.js:466-477 | on the default 20-by-20-cell canvas with cells larger than 16 units there are 21 × 21 labels, not 400. Label (0, 0) stands at (4, 16 − c), above the canvas, and label (20, 0) at (20c + 4, 16 − c), right of it |
| Grid.GridLines | static/js/app.js:456-463 | the two line loops emit one full-height vertical per x position, then one full-width horizontal per y position |
| Grid.CellLabels | static/js/app.js:466-477 | the nested label loops emit exactly the labels of every column, left to right, with `cx` counting columns |
| Grid.ColumnLabels | static/js/app.js:469-475 | the inner label loop emits exactly one column's labels, top to bottom, with `cy` counting rows |
| Snap.Trunc | static/js/app.js:510 | rounding toward zero: the floor for non-negative values, and within one below-or-equal for negative ones |
| Snap.JsRem | static/js/app.js:510-511 | JavaScript's `%` by a positive cell size: the remainder lies in [0, c) for a non-negative dividend and in (−c, 0] for a negative one, and what it removes is a whole multiple of c |
| Snap.TruncCell | static/js/app.js:510-511 | the truncated quotient is the cell index, except for a negative coordinate strictly inside a cell, where it is one more |
| Snap.SnapCoord | static/js/app.js:510-511 | a coordinate snaps to the centre of the cell that contains it. A negative coordinate strictly inside a cell instead snaps to the centre of the cell above it |
| Snap.SnapLatLng | static/js/app.js:509-511 | each non-negative coordinate of a marker goes to the centre of its cell, floor(v / c)·c + c/2. A negative one goes to the centre of its own cell if it lies on a cell boundary, and of the next cell up otherwise |
| Snap.SnapIsCellCentre | static/js/app.js:510-511 | a non-negative coordinate snaps to the centre of the cell that contains it, floor(v / c)·c + c/2, and stays in that cell |
| Snap.SnapIdempotent | static/js/app.js:531-536 | for a non-negative coordinate, snapping again gives the same value |
| Snap.SnapLatLngIdempotent | static/js/app.js:531-536 | a marker in the first quadrant keeps both cells when snapped, and a `dragend` that does not move it leaves it where it is |
| Snap.SnapJustBelowOrigin | static/js/app.js:510-511 | a coordinate just below zero, in (−c, 0), lies in cell −1 but snaps to c/2, the centre of cell 0 |
| Snap.SnapNotIdempotentBelowZero | static/js/app.js:534-535 | with cells of 100, −150 snaps to −50 and −50 snaps on to 50, so the `dragend` re-snap moves a marker left of or below the origin |
| Alignment.SnapBetweenColumnLines | static/js/app.js:456-459 | a non-negative longitude whose cell's right-hand line, at (cell + 1)·c, is within the width snaps midway between two drawn column lines |
| Alignment.SnapBetweenRowLines | static/js/app.js:460-463 | when the image height is a whole number of cells, a latitude inside the grid snaps midway between two drawn row lines, which lie at `height − y` |
| Alignment.SnapOntoRowLine | static/js/app.js:394 | on a 750-high image with 100-unit cells, latitudes 720 and 640 snap onto the drawn row lines at 750 and 650 |

## Left out

- Pixels are not modelled. The model stops at the list of canvas commands; it does not model what the canvas shows after compositing, nor `lineJoin`, `beginPath` or the arc angles.
- The `isCanvasBlank` helper is left out. Its only caller is a commented-out block in `onDrawLayer`, so it never runs.
- Projection and zoom are parameters. `latLngToContainerPoint` and `crs.scale(getZoom())` are Leaflet code, so the model takes them as inputs.
- The redraw triggers are left out. `clear` and `mousemove` call `drawLayer`, and Leaflet calls it again on pan and zoom; the model gives a redraw's output, not its scheduling.
- `onAdd`'s registration of the handlers with the map is left out. The handlers themselves are modelled as the `OnMouse…` methods.
- `enablePainting` and `disablePainting` are left out beyond the layer's `enable` and `disable`. What they add is showing and hiding the draw controls and switching Leaflet's zoom and drag gestures.
- These parts are DOM, file or Leaflet plumbing with no state of the model's, so they are left out: `_addControls`, `onFileUpload`, `onCellSizeChange`, `clearPainting` (which only calls `clear`), the `App` constructor, and the marker icon, counter, removal and placement on the map.
- `Layers.PaintLayer.ApplySettings`: only the three keys the application passes are modelled (`lineWidth`, `strokeStyle`, `erase`). The source would copy any key into the settings and the active stroke.
- `Strokes.Feature` stores line widths as integers. The width input passes `parseInt` of its value, which can be NaN for an empty input, and the model does not represent NaN.
- Strokes are values, not shared objects. In the source each stroke is a fresh object that no other code holds, so updating it through `features[last]` and replacing it in a sequence are the same.
- `Grid.DrawGrid` requires a positive cell size. The source loops forever for a negative size. For 0 or NaN the padding comes out NaN, so no line or label is drawn. The model also takes the bounds' far corner as natural numbers; the source reads them from an image's size or bounds and never uses the near corner.
- `Snap.SnapCoord` requires a positive cell size. With 0 or NaN the source produces NaN coordinates. A negative size is accepted by the input too, but the input's `change` event then runs `drawGrid`, which loops forever before a marker can be placed.
- Floating-point rounding is left out: the snap is modelled on exact reals.
- `Render.DrawOp`: a `Stroke` command carries the width assigned to `lineWidth`. A canvas ignores an assignment that is not positive and keeps the width in force before it; the model does not track that earlier width. A width of exactly 0 draws dots of radius 0; it does not throw.
- `Render.FeatureOps`: the exception is modelled only for the first dot's `arc`. The second `arc` (line 125) has the same radius, so it is never reached once the first has thrown.
- `Layers.PaintLayer.OnDrawLayer`: what happens to the exception after it leaves `onDrawLayer` is Leaflet's concern and is left out. The model only ends the frame there.

=== FILE: alignment.dfy ===
/** How snapped marker positions sit on the drawn grid. The grid image covers
    latitudes 0 to `height` and longitudes 0 to `width`; its canvas `y` grows
    downward from the top edge, so a row line drawn at canvas `y` lies at
    latitude `height - y`, while a column line drawn at canvas `x` lies at
    longitude `x`. The snap counts cells from latitude and longitude 0. */
module Alignment {
  import Snap
  import Grid

  /** A non-negative longitude snaps midway between the two drawn column
      lines around it, whenever the grid reaches past its cell. */
  lemma SnapBetweenColumnLines(v: real, width: nat, cellSize: int)
    requires cellSize > 0 && 0.0 <= v
    requires (Snap.Cell(v, cellSize) + 1) * cellSize <= width
    ensures Snap.Cell(v, cellSize) * cellSize in Grid.Ticks(width, cellSize)
    ensures (Snap.Cell(v, cellSize) + 1) * cellSize in Grid.Ticks(width, cellSize)
    ensures Snap.SnapCoord(v, cellSize) ==
      ((Snap.Cell(v, cellSize) * cellSize) as real + ((Snap.Cell(v, cellSize) + 1) * cellSize) as real) / 2.0
  {
    var m := Snap.Cell(v, cellSize);
    assert m >= 0 by {
      Snap.QuotBounds(v, cellSize as real, 0.0);
    }
    Snap.Midway(m, cellSize);
    Grid.MultipleOf(m, cellSize);
    Grid.MultipleOf(m + 1, cellSize);
    Grid.TicksAreMultiples(width, cellSize, m * cellSize);
    Grid.TicksAreMultiples(width, cellSize, (m + 1) * cellSize);
  }

  /** When the height is a whole number of cells, a latitude inside the grid
      snaps midway between the two drawn row lines around it. */
  lemma SnapBetweenRowLines(v: real, height: nat, cellSize: int)
    requires cellSize > 0 && height % cellSize == 0 && 0.0 <= v < height as real
    ensures height - Snap.Cell(v, cellSize) * cellSize in Grid.Ticks(height, cellSize)
    ensures height - (Snap.Cell(v, cellSize) + 1) * cellSize in Grid.Ticks(height, cellSize)
    ensures Snap.SnapCoord(v, cellSize) ==
      ((Snap.Cell(v, cellSize) * cellSize) as real + ((Snap.Cell(v, cellSize) + 1) * cellSize) as real) / 2.0
  {
    var m := Snap.Cell(v, cellSize);
    var n := height / cellSize;
    CellInside(v, height, n, cellSize);
    RowLinesDrawn(height, n, m, cellSize);
    Snap.Midway(m, cellSize);
  }

  /** A latitude inside a grid `n` cells high lies in one of cells 0 to n - 1. */
  lemma CellInside(v: real, height: nat, n: int, cellSize: int)
    requires cellSize > 0 && height % cellSize == 0 && n == height / cellSize
    requires 0.0 <= v < height as real
    ensures height == n * cellSize
    ensures 0 <= Snap.Cell(v, cellSize) < n
  {
    assert height == n * cellSize + height % cellSize;
    var c := cellSize as real;
    var m := Snap.Cell(v, cellSize);
    Snap.QuotBounds(v, c, 0.0);
    Snap.QuotBounds(v, c, m as real);
    var mc := m * cellSize;
    assert mc as real == c * m as real;
    assert mc < height;
    if m >= n {
      Grid.MulMono(n, m, cellSize);
    }
  }

  /** In a grid `n` cells high, both row lines around cell `m < n` are drawn. */
  lemma RowLinesDrawn(height: nat, n: int, m: int, cellSize: int)
    requires cellSize > 0 && height == n * cellSize && 0 <= m < n
    ensures height - m * cellSize in Grid.Ticks(height, cellSize)
    ensures height - (m + 1) * cellSize in Grid.Ticks(height, cellSize)
  {
    FromTop(height, n, m, cellSize);
    Grid.MultipleOf(n - m, cellSize);
    Grid.MultipleOf(n - m - 1, cellSize);
    Grid.MulMono(n - m, n, cellSize);
    Grid.MulMono(0, n - m - 1, cellSize);
    Grid.TicksAreMultiples(height, cellSize, height - m * cellSize);
    Grid.TicksAreMultiples(height, cellSize, height - (m + 1) * cellSize);
  }

  /** Measured from the top of a grid `n` cells high, the boundaries of cell
      `m` are `n - m` and `n - m - 1` cells down. */
  lemma FromTop(height: int, n: int, m: int, cellSize: int)
    requires height == n * cellSize
    ensures height - m * cellSize == (n - m) * cellSize
    ensures height - (m + 1) * cellSize == (n - m - 1) * cellSize
  {
  }

  /** When the height is not a whole number of cells the rows do not line up:
      on a 750-unit-high image with 100-unit cells, a marker dropped at
      latitude 720 snaps to 750, the top row line, and one dropped at 640
      snaps to 650, the next row line down. */
  lemma SnapOntoRowLine()
    ensures Snap.SnapCoord(720.0, 100) == (750 - Grid.Ticks(750, 100)[0]) as real
    ensures Snap.SnapCoord(640.0, 100) == (750 - Grid.Ticks(750, 100)[1]) as real
  {
    Grid.TicksShape(750, 100);
    assert Snap.Cell(720.0, 100) == 7;
    assert Snap.Cell(640.0, 100) == 6;
  }
}

=== FILE: geo.dfy ===
/** Coordinates shared by the paint layer, the renderer and the marker snap. */
module Geo {

  /** A persisted map coordinate (Leaflet's `L.LatLng`); under `L.CRS.Simple`
      `lat` is the vertical and `lng` the horizontal map unit. */
  datatype LatLng = LatLng(lat: real, lng: real)

  /** A container pixel, as returned by the map's projection. */
  datatype Pixel = Pixel(x: real, y: real)
}

=== FILE: grid.dfy ===
/** The layout arithmetic of `App.prototype.drawGrid`: the padding values,
    the positions of the grid lines and the labels. The canvas itself,
    fonts and the image overlay are not modelled; the model yields the
    segments and labels the loops hand to the canvas. */
module Grid {

  datatype Option<T> = None | Some(value: T)

  /** The far corner of `bounds` (`bounds[1]`, as `[lat, lng]`); the near corner is never read. */
  datatype Corner = Corner(lat: nat, lng: nat)

  datatype Point = Point(x: int, y: int)

  /** One `moveTo`/`lineTo` pair. */
  datatype Segment = Segment(from: Point, to: Point)

  /** One `fillText(cx + ',' + cy, at.x, at.y)`. */
  datatype Label = Label(cx: nat, cy: nat, at: Point)

  /** `pL`, `pT`, `pR`, `pB`. */
  datatype Padding = Padding(left: int, top: int, right: int, bottom: int)

  /** What one call of `drawGrid` paints. */
  datatype GridImage = GridImage(width: nat, height: nat, lines: seq<Segment>, labels: seq<Label>)

  /** The number of cells per side of the default bounds. */
  const DefaultCells: nat := 20

  /** The padding arithmetic: `nX = floor(width / cellSize) - 2`,
      `pX = width - nX * cellSize`, `pR = width - nX * cellSize - pX` (and the
      same vertically). Whatever the size, every padding is zero. */
  function Pad(cellSize: int, width: nat, height: nat): (p: Padding)
    requires cellSize > 0
    ensures p == Padding(0, 0, 0, 0)
  {
    var nX := width / cellSize - 2;
    var nY := height / cellSize - 2;
    var pX := width - nX * cellSize;
    var pY := height - nY * cellSize;
    Padding(0, 0, width - nX * cellSize - pX, height - nY * cellSize - pY)
  }

  /** The positions the `x += cellSize` (or `y += cellSize`) loops visit from
      `x` on: x, x + cellSize, x + 2*cellSize, ..., up to and including `limit`. */
  function TicksFrom(x: int, limit: int, cellSize: int): (ts: seq<int>)
    requires cellSize > 0
    ensures ts == [] <==> x > limit
    ensures ts != [] ==> ts[0] == x
    decreases limit - x
  {
    if x > limit then [] else [x] + TicksFrom(x + cellSize, limit, cellSize)
  }

  /** One turn of a tick loop: the visited prefix takes the next position. */
  lemma TicksStep(done: seq<int>, x: int, limit: int, cellSize: int)
    requires cellSize > 0 && x <= limit
    ensures done + TicksFrom(x, limit, cellSize) == (done + [x]) + TicksFrom(x + cellSize, limit, cellSize)
  {
    assert TicksFrom(x, limit, cellSize) == [x] + TicksFrom(x + cellSize, limit, cellSize);
  }

  /** The positions of the grid lines along one side of length `limit`; the
      line at 0 is always drawn. */
  function Ticks(limit: nat, cellSize: int): (ts: seq<int>)
    requires cellSize > 0
    ensures |ts| >= 1 && ts[0] == 0
  {
    TicksFrom(0, limit, cellSize)
  }

  lemma MulMono(a: int, b: int, c: int)
    requires a <= b && c > 0
    ensures a * c <= b * c
  {
    assert b * c - a * c == (b - a) * c;
  }

  /** Closed form of the walk: the k-th position is x + k * cellSize, and there
      is one position per cell that fits between x and `limit`. */
  lemma {:induction false} TicksFromShape(x: int, limit: int, cellSize: int)
    requires cellSize > 0
    ensures x > limit ==> TicksFrom(x, limit, cellSize) == []
    ensures x <= limit ==> |TicksFrom(x, limit, cellSize)| == (limit - x) / cellSize + 1
    ensures forall k :: 0 <= k < |TicksFrom(x, limit, cellSize)| ==>
      TicksFrom(x, limit, cellSize)[k] == x + k * cellSize
    decreases limit - x
  {
    if x <= limit {
      var rest := TicksFrom(x + cellSize, limit, cellSize);
      TicksFromShape(x + cellSize, limit, cellSize);
      var d := limit - x;
      DivStep(d, cellSize);
      forall k | 1 <= k < |TicksFrom(x, limit, cellSize)|
        ensures TicksFrom(x, limit, cellSize)[k] == x + k * cellSize
      {
        assert TicksFrom(x, limit, cellSize)[k] == rest[k - 1];
        assert (k - 1) * cellSize + cellSize == k * cellSize;
      }
    }
  }

  /** One cell less, one quotient less. */
  lemma DivStep(d: nat, c: int)
    requires c > 0
    ensures d < c ==> d / c == 0
    ensures d >= c ==> (d - c) / c + 1 == d / c
  {
    var q, r := d / c, d % c;
    assert d == q * c + r;
    if d >= c {
      assert d - c == (q - 1) * c + r;
      RowMajor(q - 1, r, c) by {
        if q - 1 < 0 {
          MulMono(q, 0, c);
        }
      }
    } else {
      RowMajor(0, d, c);
    }
  }

  /** The tick positions are 0, cellSize, 2*cellSize, ..., the largest multiple
      of the cell size not beyond `limit`: the position after the last tick
      is past `limit`. */
  lemma TicksShape(limit: nat, cellSize: int)
    requires cellSize > 0
    ensures |Ticks(limit, cellSize)| == limit / cellSize + 1
    ensures forall k :: 0 <= k < |Ticks(limit, cellSize)| ==> Ticks(limit, cellSize)[k] == k * cellSize
    ensures Ticks(limit, cellSize)[0] == 0
    ensures forall k :: 0 <= k < |Ticks(limit, cellSize)| ==> Ticks(limit, cellSize)[k] <= limit
    ensures limit < Ticks(limit, cellSize)[|Ticks(limit, cellSize)| - 1] + cellSize
  {
    TicksFromShape(0, limit, cellSize);
    var q := limit / cellSize;
    assert limit == q * cellSize + limit % cellSize;
    forall k | 0 <= k < |Ticks(limit, cellSize)|
      ensures Ticks(limit, cellSize)[k] <= limit
    {
      MulMono(k, q, cellSize);
    }
    assert (q + 1) * cellSize == q * cellSize + cellSize;
  }

  /** A multiple of the cell size, as a fact about division. */
  lemma MultipleOf(k: nat, cellSize: int)
    requires cellSize > 0
    ensures (k * cellSize) % cellSize == 0 && (k * cellSize) / cellSize == k
  {
    RowMajor(k, 0, cellSize);
  }

  /** The ticks are exactly the multiples of the cell size from 0 to `limit`
      inclusive. */
  lemma TicksAreMultiples(limit: nat, cellSize: int, v: int)
    requires cellSize > 0
    ensures v in Ticks(limit, cellSize) <==> 0 <= v <= limit && v % cellSize == 0
  {
    var xs := Ticks(limit, cellSize);
    TicksShape(limit, cellSize);
    if v in xs {
      var k :| 0 <= k < |xs| && xs[k] == v;
      MultipleOf(k, cellSize);
    }
    if 0 <= v <= limit && v % cellSize == 0 {
      var k := v / cellSize;
      assert v == k * cellSize;
      assert 0 <= k by {
        if k < 0 {
          MulMono(k, -1, cellSize);
        }
      }
      assert k <= limit / cellSize by {
        if k > limit / cellSize {
          MulMono(limit / cellSize + 1, k, cellSize);
        }
      }
      assert xs[k] == v;
    }
  }

  /** Without bounds the canvas is 20 cells square: 21 line positions per
      side, one per multiple of the cell size from 0 to 20 cells. */
  lemma DefaultGrid(cellSize: int)
    requires cellSize > 0
    ensures |Ticks(DefaultCells * cellSize, cellSize)| == DefaultCells + 1
    ensures forall k :: 0 <= k <= DefaultCells ==> Ticks(DefaultCells * cellSize, cellSize)[k] == k * cellSize
  {
    TicksShape(DefaultCells * cellSize, cellSize);
    MultipleOf(DefaultCells, cellSize);
  }

  /** The vertical lines: one full-height segment per x position. */
  function Verticals(xs: seq<int>, height: int): (ls: seq<Segment>)
    ensures |ls| == |xs|
    ensures forall k :: 0 <= k < |ls| ==>
      ls[k].from.x == xs[k] && ls[k].to.x == xs[k] && ls[k].from.y == 0 && ls[k].to.y == height
  {
    seq(|xs|, k requires 0 <= k < |xs| => Segment(Point(xs[k], 0), Point(xs[k], height)))
  }

  /** The horizontal lines: one full-width segment per y position. */
  function Horizontals(ys: seq<int>, width: int): (ls: seq<Segment>)
    ensures |ls| == |ys|
    ensures forall k :: 0 <= k < |ls| ==>
      ls[k].from.y == ys[k] && ls[k].to.y == ys[k] && ls[k].from.x == 0 && ls[k].to.x == width
  {
    seq(|ys|, k requires 0 <= k < |ys| => Segment(Point(0, ys[k]), Point(width, ys[k])))
  }

  /** The labels of column `cx`, at x position `x`, top to bottom. */
  function Column(cx: nat, x: int, ys: seq<int>, cellSize: int): (ls: seq<Label>)
    ensures |ls| == |ys|
    ensures forall j :: 0 <= j < |ls| ==> ls[j].cx == cx && ls[j].cy == j
    decreases |ys|
  {
    if ys == [] then []
    else
      var cy := |ys| - 1;
      Column(cx, x, ys[..cy], cellSize) + [Label(cx, cy, Point(x + 4, ys[cy] - cellSize + 16))]
  }

  /** The labels of every column, left to right. */
  function Labels(xs: seq<int>, ys: seq<int>, cellSize: int): (ls: seq<Label>)
    ensures forall q :: 0 <= q < |ls| ==> ls[q].cx < |xs| && ls[q].cy < |ys|
    decreases |xs|
  {
    if xs == [] then []
    else
      var cx := |xs| - 1;
      Labels(xs[..cx], ys, cellSize) + Column(cx, xs[cx], ys, cellSize)
  }

  lemma {:induction false} ColumnShape(cx: nat, x: int, ys: seq<int>, cellSize: int)
    ensures |Column(cx, x, ys, cellSize)| == |ys|
    ensures forall j :: 0 <= j < |ys| ==>
      Column(cx, x, ys, cellSize)[j] == Label(cx, j, Point(x + 4, ys[j] - cellSize + 16))
    decreases |ys|
  {
    if ys != [] {
      var cy := |ys| - 1;
      ColumnShape(cx, x, ys[..cy], cellSize);
      assert forall j :: 0 <= j < cy ==> ys[..cy][j] == ys[j];
    }
  }

  /** Position q of a row-major n-wide enumeration is cell (q / n, q % n). */
  lemma RowMajor(i: nat, j: nat, n: nat)
    requires j < n
    ensures (i * n + j) / n == i && (i * n + j) % n == j
  {
    var q := i * n + j;
    var d, r := q / n, q % n;
    assert q == d * n + r;
    if d < i {
      MulMono(d + 1, i, n);
      assert false;
    } else if d > i {
      MulMono(i + 1, d, n);
      assert false;
    }
  }

  lemma ColumnSnoc(cx: nat, x: int, ys: seq<int>, y: int, cellSize: int)
    ensures Column(cx, x, ys + [y], cellSize) == Column(cx, x, ys, cellSize) + [Label(cx, |ys|, Point(x + 4, y - cellSize + 16))]
  {
    assert (ys + [y])[..|ys|] == ys;
  }

  lemma LabelsSnoc(xs: seq<int>, x: int, ys: seq<int>, cellSize: int)
    ensures Labels(xs + [x], ys, cellSize) == Labels(xs, ys, cellSize) + Column(|xs|, x, ys, cellSize)
  {
    assert (xs + [x])[..|xs|] == xs;
  }

  lemma {:induction false} LabelsLength(xs: seq<int>, ys: seq<int>, cellSize: int)
    ensures |Labels(xs, ys, cellSize)| == |xs| * |ys|
    decreases |xs|
  {
    if xs != [] {
      var cx := |xs| - 1;
      LabelsLength(xs[..cx], ys, cellSize);
      ColumnShape(cx, xs[cx], ys, cellSize);
      assert |xs| * |ys| == cx * |ys| + |ys|;
    }
  }

  /** The label of the pair (i, j) stands at position i * |ys| + j. */
  lemma {:induction false} LabelAt(xs: seq<int>, ys: seq<int>, cellSize: int, i: nat, j: nat)
    requires i < |xs| && j < |ys|
    ensures i * |ys| + j < |Labels(xs, ys, cellSize)|
    ensures Labels(xs, ys, cellSize)[i * |ys| + j] == Label(i, j, Point(xs[i] + 4, ys[j] - cellSize + 16))
    decreases |xs|
  {
    var m, cx := |ys|, |xs| - 1;
    var prev, col := Labels(xs[..cx], ys, cellSize), Column(cx, xs[cx], ys, cellSize);
    assert Labels(xs, ys, cellSize) == prev + col;
    LabelsLength(xs[..cx], ys, cellSize);
    ColumnShape(cx, xs[cx], ys, cellSize);
    if i < cx {
      LabelAt(xs[..cx], ys, cellSize, i, j);
      assert xs[..cx][i] == xs[i];
    } else {
      var base := cx * m;
      assert |prev| == base;
      assert i * m + j == base + j;
    }
  }

  /** There is one label per (x, y) position pair, column by column: label q
      names the pair (q / |ys|, q % |ys|) and sits 4 units right of its column line
      and `cellSize - 16` units above its row line. */
  lemma LabelsShape(xs: seq<int>, ys: seq<int>, cellSize: int)
    ensures |Labels(xs, ys, cellSize)| == |xs| * |ys|
    ensures forall q :: 0 <= q < |Labels(xs, ys, cellSize)| ==>
      0 <= q / |ys| < |xs| && 0 <= q % |ys| < |ys| &&
      Labels(xs, ys, cellSize)[q] == Label(q / |ys|, q % |ys|, Point(xs[q / |ys|] + 4, ys[q % |ys|] - cellSize + 16))
  {
    LabelsLength(xs, ys, cellSize);
    forall q | 0 <= q < |Labels(xs, ys, cellSize)|
      ensures 0 <= q / |ys| < |xs| && 0 <= q % |ys| < |ys|
      ensures Labels(xs, ys, cellSize)[q] == Label(q / |ys|, q % |ys|, Point(xs[q / |ys|] + 4, ys[q % |ys|] - cellSize + 16))
    {
      CellOf(q, |xs|, |ys|);
      var i, j := q / |ys|, q % |ys|;
      LabelAt(xs, ys, cellSize, i, j);
      assert q == i * |ys| + j;
    }
  }

  /** An index below n * m is the row-major position of cell (q / m, q % m). */
  lemma CellOf(q: nat, n: nat, m: nat)
    requires q < n * m
    ensures m > 0 && 0 <= q / m < n && 0 <= q % m < m && q == (q / m) * m + q % m
  {
    var i := q / m;
    assert q == i * m + q % m;
    if i >= n {
      MulMono(n, i, m);
    }
    if i < 0 {
      MulMono(i, -1, m);
    }
  }

  /** The label loops name pairs of line positions, not cells, and place each
      label 16 units below the line above it: on the default canvas of 20 by 20
      cells, with cells larger than 16 units, there are 21 by 21 labels, the
      labels of row 0 stand above the canvas and those of column 20 to the
      right of it. */
  lemma DefaultLabelsOverhang(cellSize: int)
    requires cellSize > 16
    ensures var side := DefaultCells * cellSize;
      var ls := Labels(Ticks(side, cellSize), Ticks(side, cellSize), cellSize);
      |ls| == (DefaultCells + 1) * (DefaultCells + 1) &&
      ls[0] == Label(0, 0, Point(4, 16 - cellSize)) && ls[0].at.y < 0 &&
      ls[DefaultCells * (DefaultCells + 1)] == Label(DefaultCells, 0, Point(side + 4, 16 - cellSize)) &&
      ls[DefaultCells * (DefaultCells + 1)].at.x > side
  {
    var side := DefaultCells * cellSize;
    var ts := Ticks(side, cellSize);
    DefaultGrid(cellSize);
    LabelsLength(ts, ts, cellSize);
    LabelAt(ts, ts, cellSize, 0, 0);
    LabelAt(ts, ts, cellSize, DefaultCells, 0);
  }

  /** `drawGrid`: size the canvas from `bounds` (or 20 cells square), lay out
      the vertical then the horizontal lines, then label every pair of line
      positions, column by column. */
  method DrawGrid(cellSize: int, bounds: Option<Corner>) returns (g: GridImage)
    requires cellSize > 0
    ensures bounds.Some? ==> g.height == bounds.value.lat && g.width == bounds.value.lng
    ensures bounds.None? ==> g.height == g.width == DefaultCells * cellSize
    ensures g.lines == Verticals(Ticks(g.width, cellSize), g.height) + Horizontals(Ticks(g.height, cellSize), g.width)
    ensures g.labels == Labels(Ticks(g.width, cellSize), Ticks(g.height, cellSize), cellSize)
  {
    var corner := if bounds.Some? then bounds.value else Corner(cellSize * DefaultCells, cellSize * DefaultCells);
    var height, width := corner.lat, corner.lng;
    var pad := Pad(cellSize, width, height);
    var lines := GridLines(cellSize, width, height, pad);
    var labels := CellLabels(cellSize, width, height, pad);
    g := GridImage(width, height, lines, labels);
  }

  /** The two line loops of `drawGrid`: every vertical line, then every horizontal one. */
  method GridLines(cellSize: int, width: nat, height: nat, pad: Padding) returns (lines: seq<Segment>)
    requires cellSize > 0 && pad == Padding(0, 0, 0, 0)
    ensures lines == Verticals(Ticks(width, cellSize), height) + Horizontals(Ticks(height, cellSize), width)
  {
    lines := [];
    ghost var done: seq<int> := [];
    var x := pad.left;
    while x <= width - pad.right
      invariant done + TicksFrom(x, width, cellSize) == Ticks(width, cellSize)
      invariant lines == Verticals(done, height)
      decreases width - x
    {
      TicksStep(done, x, width, cellSize);
      done := done + [x];
      lines := lines + [Segment(Point(x, pad.top), Point(x, height - pad.bottom))];
      x := x + cellSize;
    }
    assert done + [] == done;
    ghost var verticals := lines;

    done := [];
    var y := pad.top;
    while y <= height - pad.bottom
      invariant done + TicksFrom(y, height, cellSize) == Ticks(height, cellSize)
      invariant lines == verticals + Horizontals(done, width)
      decreases height - y
    {
      TicksStep(done, y, height, cellSize);
      done := done + [y];
      lines := lines + [Segment(Point(pad.left, y), Point(width - pad.right, y))];
      y := y + cellSize;
    }
    assert done + [] == done;
  }

  /** The nested label loops of `drawGrid`: counters `cx` and `cy` name the pair of lines. */
  method CellLabels(cellSize: int, width: nat, height: nat, pad: Padding) returns (labels: seq<Label>)
    requires cellSize > 0 && pad == Padding(0, 0, 0, 0)
    ensures labels == Labels(Ticks(width, cellSize), Ticks(height, cellSize), cellSize)
  {
    labels := [];
    ghost var done: seq<int> := [];
    ghost var ys := Ticks(height, cellSize);
    var cx := 0;
    var x := pad.left;
    while x <= width - pad.right
      invariant done + TicksFrom(x, width, cellSize) == Ticks(width, cellSize)
      invariant cx == |done|
      invariant labels == Labels(done, ys, cellSize)
      decreases width - x
    {
      assert (done + [x]) + TicksFrom(x + cellSize, width, cellSize) == Ticks(width, cellSize) by {
        TicksStep(done, x, width, cellSize);
      }
      var column := ColumnLabels(cellSize, height, pad, cx, x);
      assert Labels(done + [x], ys, cellSize) == labels + column by {
        LabelsSnoc(done, x, ys, cellSize);
      }
      labels := labels + column;
      done := done + [x];
      cx, x := cx + 1, x + cellSize;
    }
    assert done + [] == done;
  }

  /** The inner label loop of `drawGrid`: the labels of column `cx`, top to bottom. */
  method ColumnLabels(cellSize: int, height: nat, pad: Padding, cx: nat, x: int) returns (column: seq<Label>)
    requires cellSize > 0 && pad == Padding(0, 0, 0, 0)
    ensures column == Column(cx, x, Ticks(height, cellSize), cellSize)
  {
    column := [];
    ghost var done: seq<int> := [];
    var cy := 0;
    var y := pad.top;
    while y <= height - pad.bottom
      invariant done + TicksFrom(y, height, cellSize) == Ticks(height, cellSize)
      invariant cy == |done|
      invariant column == Column(cx, x, done, cellSize)
      decreases height - y
    {
      TicksStep(done, y, height, cellSize);
      ColumnSnoc(cx, x, done, y, cellSize);
      column := column + [Label(cx, cy, Point(x + 4, y - cellSize + 16))];
      done := done + [y];
      cy, y := cy + 1, y + cellSize;
    }
    assert done + [] == done;
  }
}

=== FILE: paint_layer.dfy ===
/** `L.PaintLayer` as an object: its four fields, its handlers and public
    methods, each proved to perform exactly one `Strokes.Step`, and its redraw,
    proved to issue exactly `Render.Frame`. */
module Layers {
  import opened Geo
  import opened Strokes
  import opened Render

  class PaintLayer {
    var features: seq<Feature>
    var settings: Settings
    var painting: bool
    var mouseDown: bool

    /** The abstract value of the layer. */
    function State(): Layer
      reads this
    {
      Layer(features, settings, painting, mouseDown)
    }

    /** The object invariant: that of the state machine. */
    predicate Valid()
      reads this
    {
      Strokes.Valid(State())
    }

    /** `initialize`: painting off, button up, default settings, one empty stroke. */
    constructor ()
      ensures State() == Init()
      ensures Valid()
    {
      painting := false;
      mouseDown := false;
      settings := DefaultSettings;
      features := [MakeFeature(DefaultSettings)];
    }

    /** `clear`: the store is reset to one empty stroke in the current style. */
    method Clear()
      requires Valid()
      modifies this
      ensures State() == Step(old(State()), Event.Clear)
      ensures Valid()
    {
      features := [MakeFeature(settings)];
    }

    /** The `mousedown` handler. */
    method OnMouseDown()
      requires Valid()
      modifies this
      ensures State() == Step(old(State()), MouseDown)
      ensures Valid()
    {
      if painting {
        mouseDown := true;
      }
    }

    /** The `mouseup` handler: release, and seal the active stroke if it has points. */
    method OnMouseUp()
      requires Valid()
      modifies this
      ensures State() == Step(old(State()), MouseUp)
      ensures Valid()
    {
      if painting {
        mouseDown := false;
        if |features[|features| - 1].path| != 0 {
          features := features + [MakeFeature(settings)];
        }
      }
    }

    /** The `mousemove` handler: while painting with the button down, push the
        event position onto the active path. */
    method OnMouseMove(at: LatLng)
      requires Valid()
      modifies this
      ensures State() == Step(old(State()), MouseMove(at))
      ensures Valid()
    {
      if painting && mouseDown {
        var last := features[|features| - 1];
        features := features[..|features| - 1] + [last.(path := last.path + [at])];
      }
    }

    /** `enable`: turn draw mode on. */
    method Enable()
      requires Valid()
      modifies this
      ensures State() == Step(old(State()), Event.Enable)
      ensures Valid()
    {
      painting := true;
    }

    /** `disable`: turn draw mode off; the button flag is left as it is. */
    method Disable()
      requires Valid()
      modifies this
      ensures State() == Step(old(State()), Event.Disable)
      ensures Valid()
    {
      painting := false;
    }

    /** `enableErase`: erase on, in the settings and in the active stroke. */
    method EnableErase()
      requires Valid()
      modifies this
      ensures State() == Step(old(State()), Event.EnableErase)
      ensures Valid()
    {
      settings := settings.(erase := true);
      var last := features[|features| - 1];
      features := features[..|features| - 1] + [last.(erase := true)];
      assert [Erase(true)][..0] == [];
    }

    /** `disableErase`: erase off, in the settings and in the active stroke. */
    method DisableErase()
      requires Valid()
      modifies this
      ensures State() == Step(old(State()), Event.DisableErase)
      ensures Valid()
    {
      settings := settings.(erase := false);
      var last := features[|features| - 1];
      features := features[..|features| - 1] + [last.(erase := false)];
      assert [Erase(false)][..0] == [];
    }

    /** `applySettings`: every key is written into the settings and into the
        active stroke, one key after another. */
    method ApplySettings(entries: seq<Setting>)
      requires Valid()
      modifies this
      ensures State() == Step(old(State()), Event.ApplySettings(entries))
      ensures Valid()
    {
      ghost var fs0 := features;
      for i := 0 to |entries|
        invariant |features| == |fs0|
        invariant painting == old(painting) && mouseDown == old(mouseDown)
        invariant settings == ApplyToSettings(old(settings), entries[..i])
        invariant features == Sealed(fs0) + [ApplyToFeature(Active(fs0), entries[..i])]
      {
        assert entries[..i + 1][..i] == entries[..i];
        settings := SetSetting(settings, entries[i]);
        var n := |features|;
        features := features[..n - 1] + [SetFeatureKey(features[n - 1], entries[i])];
      }
      assert entries[..|entries|] == entries;
      StepValid(old(State()), Event.ApplySettings(entries));
    }

    /** `onDrawLayer`: the commands of one redraw, for the given projection and
        zoom scale. A feature whose drawing throws ends the redraw. */
    method OnDrawLayer(project: LatLng -> Pixel, scale: real) returns (ops: seq<DrawOp>)
      ensures ops == Frame(features, project, scale)
    {
      var fs := features;
      ops := [ClearCanvas];
      var i := 0;
      assert fs[..0] == [];
      while i < |fs|
        invariant i <= Stop(fs, scale)
        invariant ops == [ClearCanvas] + FeaturesOps(fs[..i], project, scale)
      {
        var featureOps, threw := DrawFeature(fs[i], project, scale);
        ops := ops + featureOps;
        if threw {
          // the exception leaves `onDrawLayer`
          ThrowStep(fs, i, project, scale);
          return;
        }
        DrawStep(fs, i, project, scale);
        i := i + 1;
      }
      DrawDone(fs, project, scale);
    }
  }
}

=== FILE: render.dfy ===
/** `onDrawLayer` as a generator of canvas commands. The projection
    (`latLngToContainerPoint`) and the zoom scale (`crs.scale(getZoom())`) are
    parameters; the point of the model is which commands are issued, and in
    which order, including the exception that ends a redraw early. */
module Render {
  import opened Geo
  import opened Strokes
  import opened Seqs

  /** The two values `globalCompositeOperation` is set to. */
  datatype Composite = SourceOver | DestinationOut

  /** The canvas commands `onDrawLayer` issues. `Stroke` strokes the path after
      the scaled width has been assigned to `lineWidth` (a canvas ignores a
      width that is not positive and keeps its previous one); `Circle` is one
      filled `arc` of a full turn; `ArcThrows` is an `arc` call with a negative
      radius, which throws and so ends the redraw. */
  datatype DrawOp =
    | ClearCanvas
    | SetComposite(mode: Composite)
    | MoveTo(p: Pixel)
    | LineTo(p: Pixel)
    | Stroke(width: real, color: string)
    | Circle(center: Pixel, radius: real, fill: string)
    | ArcThrows

  /** The compositing mode of a stroke: erasing punches holes. */
  function CompositeOf(erase: bool): (c: Composite)
    ensures c == DestinationOut <==> erase
  {
    if erase then DestinationOut else SourceOver
  }

  /** The commands of the inner path loop: `moveTo` for index 0, `lineTo` for every other index. */
  function PathOps(path: seq<LatLng>, project: LatLng -> Pixel): (ops: seq<DrawOp>)
    ensures |ops| == |path|
    decreases |path|
  {
    if path == [] then []
    else
      var j := |path| - 1;
      PathOps(path[..j], project) + [if j == 0 then MoveTo(project(path[j])) else LineTo(project(path[j]))]
  }

  /** The on-screen line width: the stored width times the zoom scale. It is
      negative exactly when the two have opposite signs. */
  function Width(f: Feature, scale: real): (w: real)
    ensures w < 0.0 <==> NegativeWidth(f, scale)
  {
    ProductSign(f.lineWidth as real, scale);
    f.lineWidth as real * scale
  }

  /** The stored width and the scale have opposite signs. */
  predicate NegativeWidth(f: Feature, scale: real) {
    (f.lineWidth < 0 && scale > 0.0) || (f.lineWidth > 0 && scale < 0.0)
  }

  /** A product is negative exactly when its factors have opposite signs. */
  lemma ProductSign(a: real, b: real)
    ensures a * b < 0.0 <==> (a < 0.0 && b > 0.0) || (a > 0.0 && b < 0.0)
  {
    if a < 0.0 && b > 0.0 {
      assert (-a) * b > 0.0;
    } else if a > 0.0 && b < 0.0 {
      assert a * (-b) > 0.0;
    } else if a >= 0.0 && b >= 0.0 {
      assert a * b >= 0.0;
    } else {
      assert (-a) * (-b) >= 0.0;
    }
  }

  /** Drawing `f` throws: it has points, so its dots are drawn, and the radius
      of the first one, half the on-screen width, is negative. */
  predicate Aborts(f: Feature, scale: real) {
    |f.path| > 0 && NegativeWidth(f, scale)
  }

  /** The two end-point dots, or the exception the first `arc` raises. */
  function Dots(f: Feature, project: LatLng -> Pixel, scale: real): seq<DrawOp>
    requires |f.path| > 0
  {
    if NegativeWidth(f, scale) then [ArcThrows]
    else
      [Circle(project(f.path[0]), Width(f, scale) / 2.0, f.strokeStyle),
       Circle(project(f.path[|f.path| - 1]), Width(f, scale) / 2.0, f.strokeStyle)]
  }

  /** The commands for one feature; a feature with an empty path issues none,
      and only a feature that aborts ends with the exception. */
  function FeatureOps(f: Feature, project: LatLng -> Pixel, scale: real): (ops: seq<DrawOp>)
    ensures ops == [] <==> |f.path| == 0
  {
    if |f.path| == 0 then []
    else
      [SetComposite(CompositeOf(f.erase))]
      + PathOps(f.path, project)
      + [Stroke(Width(f, scale), f.strokeStyle)]
      + Dots(f, project, scale)
  }

  /** The index of the first feature whose drawing throws, or `|fs|` when none does. */
  function Stop(fs: seq<Feature>, scale: real): (k: nat)
    ensures k <= |fs|
    decreases |fs|
  {
    if fs == [] then 0
    else if Aborts(fs[0], scale) then 0
    else 1 + Stop(fs[1..], scale)
  }

  /** `Stop` is the first index whose feature throws: none before it does,
      and the feature at it does, unless it is the end of the list. */
  lemma {:induction false} StopSpec(fs: seq<Feature>, scale: real)
    ensures forall j :: 0 <= j < Stop(fs, scale) ==> !Aborts(fs[j], scale)
    ensures Stop(fs, scale) < |fs| ==> Aborts(fs[Stop(fs, scale)], scale)
    decreases |fs|
  {
    if fs != [] && !Aborts(fs[0], scale) {
      StopSpec(fs[1..], scale);
      assert forall j :: 1 <= j < |fs| ==> fs[j] == fs[1..][j - 1];
    }
  }

  /** How many features the loop reaches: all of them, or those up to and
      including the first one that throws. */
  function Visited(fs: seq<Feature>, scale: real): (n: nat)
    ensures n <= |fs|
  {
    if Stop(fs, scale) < |fs| then Stop(fs, scale) + 1 else |fs|
  }

  /** The commands for a list of features, visited in array order; an
      exception while drawing one feature ends the list there. */
  function FeaturesOps(fs: seq<Feature>, project: LatLng -> Pixel, scale: real): seq<DrawOp>
    decreases |fs|
  {
    if fs == [] then []
    else FeatureOps(fs[0], project, scale) + (if Aborts(fs[0], scale) then [] else FeaturesOps(fs[1..], project, scale))
  }

  /** A redraw paints nothing exactly when no feature has a point: the loop
      reaches the first feature with points, since every feature before it
      is skipped and none of those throws. */
  lemma {:induction false} NothingDrawn(fs: seq<Feature>, project: LatLng -> Pixel, scale: real)
    ensures FeaturesOps(fs, project, scale) == [] <==> Drawn(fs) == 0
    decreases |fs|
  {
    if fs != [] {
      NothingDrawn(fs[1..], project, scale);
    }
  }

  /** One frame: clear the whole canvas, then paint the features. */
  function Frame(fs: seq<Feature>, project: LatLng -> Pixel, scale: real): (ops: seq<DrawOp>)
    ensures |ops| >= 1 && ops[0] == ClearCanvas
  {
    [ClearCanvas] + FeaturesOps(fs, project, scale)
  }

  /** The canvas is cleared first and at no other point of a frame. */
  lemma FrameClearsFirst(fs: seq<Feature>, project: LatLng -> Pixel, scale: real)
    ensures forall k :: 1 <= k < |Frame(fs, project, scale)| ==> !Frame(fs, project, scale)[k].ClearCanvas?
  {
    var painted := FeaturesOps(fs, project, scale);
    assert forall k :: 0 <= k < |painted| ==> !painted[k].ClearCanvas? by {
      OpsCounts(fs, project, scale);
      CountZero(painted, IsClear);
    }
  }

  /** Number of features with a non-empty path. */
  function Drawn(fs: seq<Feature>): nat
    decreases |fs|
  {
    if fs == [] then 0 else (if |fs[0].path| == 0 then 0 else 1) + Drawn(fs[1..])
  }

  /** Number of commands satisfying `isOp`. */
  function Count(ops: seq<DrawOp>, isOp: DrawOp -> bool): nat
    decreases |ops|
  {
    if ops == [] then 0 else Count(ops[..|ops| - 1], isOp) + (if isOp(ops[|ops| - 1]) then 1 else 0)
  }

  lemma {:induction false} CountConcat(a: seq<DrawOp>, b: seq<DrawOp>, isOp: DrawOp -> bool)
    ensures Count(a + b, isOp) == Count(a, isOp) + Count(b, isOp)
    decreases |b|
  {
    if b == [] {
      assert a + b == a;
    } else {
      assert (a + b)[..|a + b| - 1] == a + b[..|b| - 1];
      assert (a + b)[|a + b| - 1] == b[|b| - 1];
      CountConcat(a, b[..|b| - 1], isOp);
    }
  }

  /** No command is counted when none satisfies `isOp`. */
  lemma {:induction false} CountZero(ops: seq<DrawOp>, isOp: DrawOp -> bool)
    requires Count(ops, isOp) == 0
    ensures forall k :: 0 <= k < |ops| ==> !isOp(ops[k])
    decreases |ops|
  {
    if ops != [] {
      var init := ops[..|ops| - 1];
      CountZero(init, isOp);
      assert forall k :: 0 <= k < |init| ==> ops[k] == init[k];
    }
  }

  lemma CountSingle(op: DrawOp)
    ensures forall isOp: DrawOp -> bool :: Count([op], isOp) == (if isOp(op) then 1 else 0)
  {
    forall isOp: DrawOp -> bool
      ensures Count([op], isOp) == (if isOp(op) then 1 else 0)
    {
      assert [op][..0] == [];
    }
  }

  /** A path of n points becomes exactly one `moveTo`, to the first point,
      followed by n-1 `lineTo`s to the others in order; nothing closes it. */
  lemma {:induction false} PathOpsShape(path: seq<LatLng>, project: LatLng -> Pixel)
    ensures |PathOps(path, project)| == |path|
    ensures |path| > 0 ==> PathOps(path, project)[0] == MoveTo(project(path[0]))
    ensures forall j :: 1 <= j < |path| ==> PathOps(path, project)[j] == LineTo(project(path[j]))
    decreases |path|
  {
    if path != [] {
      var j := |path| - 1;
      PathOpsShape(path[..j], project);
      assert forall k :: 0 <= k < j ==> path[..j][k] == path[k];
    }
  }

  /** Positions in `[h] + p + t`. */
  lemma Layout(h: DrawOp, p: seq<DrawOp>, t: seq<DrawOp>)
    ensures |[h] + p + t| == 1 + |p| + |t|
    ensures ([h] + p + t)[0] == h
    ensures forall j :: 0 <= j < |p| ==> ([h] + p + t)[j + 1] == p[j]
    ensures forall k :: 0 <= k < |t| ==> ([h] + p + t)[|p| + 1 + k] == t[k]
  {
  }

  lemma FeatureOpsSplit(f: Feature, project: LatLng -> Pixel, scale: real)
    requires |f.path| > 0
    ensures FeatureOps(f, project, scale) ==
      [SetComposite(CompositeOf(f.erase))] + PathOps(f.path, project) + ([Stroke(Width(f, scale), f.strokeStyle)] + Dots(f, project, scale))
  {
  }

  /** The commands for a non-empty feature, position by position: compositing
      mode, the polyline, one stroke at the scaled width, then dots of half
      that width at the first and at the last point; when that half width is
      negative, the first dot's `arc` throws instead. */
  lemma FeatureOpsShape(f: Feature, project: LatLng -> Pixel, scale: real)
    ensures |f.path| == 0 ==> FeatureOps(f, project, scale) == []
    ensures |f.path| > 0 ==>
      |FeatureOps(f, project, scale)| == |f.path| + (if NegativeWidth(f, scale) then 3 else 4)
    ensures |f.path| > 0 ==> FeatureOps(f, project, scale)[0] == SetComposite(if f.erase then DestinationOut else SourceOver)
    ensures |f.path| > 0 ==> FeatureOps(f, project, scale)[1] == MoveTo(project(f.path[0]))
    ensures forall j :: 1 <= j < |f.path| ==> FeatureOps(f, project, scale)[j + 1] == LineTo(project(f.path[j]))
    ensures |f.path| > 0 ==>
      FeatureOps(f, project, scale)[|f.path| + 1] == Stroke(Width(f, scale), f.strokeStyle)
    ensures |f.path| > 0 && !NegativeWidth(f, scale) ==>
      FeatureOps(f, project, scale)[|f.path| + 2] == Circle(project(f.path[0]), Width(f, scale) / 2.0, f.strokeStyle)
    ensures |f.path| > 0 && !NegativeWidth(f, scale) ==>
      FeatureOps(f, project, scale)[|f.path| + 3] == Circle(project(f.path[|f.path| - 1]), Width(f, scale) / 2.0, f.strokeStyle)
    ensures |f.path| > 0 && NegativeWidth(f, scale) ==>
      FeatureOps(f, project, scale)[|f.path| + 2] == ArcThrows
  {
    if |f.path| > 0 {
      var p := PathOps(f.path, project);
      PathOpsShape(f.path, project);
      var w := Width(f, scale);
      var dots := Dots(f, project, scale);
      if NegativeWidth(f, scale) {
        assert dots == [ArcThrows];
      } else {
        assert dots == [Circle(project(f.path[0]), w / 2.0, f.strokeStyle),
                        Circle(project(f.path[|f.path| - 1]), w / 2.0, f.strokeStyle)];
      }
      var tail := [Stroke(w, f.strokeStyle)] + dots;
      FeatureOpsSplit(f, project, scale);
      Layout(SetComposite(CompositeOf(f.erase)), p, tail);
    }
  }

  /** A feature list without an exception is followed by the next list's
      commands; a list whose drawing throws is followed by nothing. */
  lemma {:induction false} FeaturesOpsConcat(a: seq<Feature>, b: seq<Feature>, project: LatLng -> Pixel, scale: real)
    ensures Stop(a, scale) == |a| ==>
      FeaturesOps(a + b, project, scale) == FeaturesOps(a, project, scale) + FeaturesOps(b, project, scale)
    ensures Stop(a, scale) < |a| ==> FeaturesOps(a + b, project, scale) == FeaturesOps(a, project, scale)
    decreases |a|
  {
    if a == [] {
      assert a + b == b;
    } else {
      var ab := a + b;
      assert ab[0] == a[0] && ab[1..] == a[1..] + b;
      var head := FeatureOps(a[0], project, scale);
      if Aborts(a[0], scale) {
        assert Stop(a, scale) == 0;
        assert FeaturesOps(ab, project, scale) == head + [] == FeaturesOps(a, project, scale);
      } else {
        FeaturesOpsConcat(a[1..], b, project, scale);
        assert Stop(a, scale) == 1 + Stop(a[1..], scale);
        assert FeaturesOps(ab, project, scale) == head + FeaturesOps(a[1..] + b, project, scale);
        assert FeaturesOps(a, project, scale) == head + FeaturesOps(a[1..], project, scale);
        if Stop(a, scale) == |a| {
          ConcatAssoc(head, FeaturesOps(a[1..], project, scale), FeaturesOps(b, project, scale));
        }
      }
    }
  }

  /** The commands of one feature. */
  lemma FeaturesOpsSingle(f: Feature, project: LatLng -> Pixel, scale: real)
    ensures FeaturesOps([f], project, scale) == FeatureOps(f, project, scale)
  {
    assert [f][1..] == [];
  }

  lemma FeaturesOpsSnoc(fs: seq<Feature>, f: Feature, project: LatLng -> Pixel, scale: real)
    requires Stop(fs, scale) == |fs|
    ensures FeaturesOps(fs + [f], project, scale) == FeaturesOps(fs, project, scale) + FeatureOps(f, project, scale)
  {
    FeaturesOpsConcat(fs, [f], project, scale);
    FeaturesOpsSingle(f, project, scale);
  }

  /** A prefix that stops short of the first exception has none. */
  lemma {:induction false} StopPrefix(fs: seq<Feature>, i: nat, scale: real)
    requires i <= Stop(fs, scale)
    ensures Stop(fs[..i], scale) == i
    decreases i
  {
    if i > 0 {
      StopPrefix(fs[1..], i - 1, scale);
      assert fs[..i][0] == fs[0] && fs[..i][1..] == fs[1..][..i - 1];
    }
  }

  /** Painting order is storage order: feature i is painted after every
      earlier feature and before every later one, so long as no earlier
      feature threw. The feature that throws is the last one painted. */
  lemma PaintOrder(fs: seq<Feature>, i: nat, project: LatLng -> Pixel, scale: real)
    requires i < |fs|
    ensures i < Stop(fs, scale) ==> (FeaturesOps(fs, project, scale) ==
      FeaturesOps(fs[..i], project, scale) + FeatureOps(fs[i], project, scale) + FeaturesOps(fs[i + 1..], project, scale))
    ensures i == Stop(fs, scale) ==> (FeaturesOps(fs, project, scale) ==
      FeaturesOps(fs[..i], project, scale) + FeatureOps(fs[i], project, scale))
  {
    if i <= Stop(fs, scale) {
      var pre, rest := fs[..i], fs[i..];
      StopPrefix(fs, i, scale);
      StopSpec(fs, scale);
      assert fs == pre + rest;
      FeaturesOpsConcat(pre, rest, project, scale);
      assert rest[0] == fs[i] && rest[1..] == fs[i + 1..];
      if i < Stop(fs, scale) {
        assert !Aborts(fs[i], scale);
        var here, after := FeatureOps(fs[i], project, scale), FeaturesOps(fs[i + 1..], project, scale);
        assert FeaturesOps(rest, project, scale) == here + after;
        ConcatAssoc(FeaturesOps(pre, project, scale), here, after);
      } else {
        assert Aborts(fs[i], scale);
        assert FeaturesOps(rest, project, scale) == FeatureOps(fs[i], project, scale) + [];
      }
    }
  }

  /** One turn of the redraw loop that does not throw: the loop may go on,
      and the frame so far has gained that feature's commands. */
  lemma DrawStep(fs: seq<Feature>, i: nat, project: LatLng -> Pixel, scale: real)
    requires i < |fs| && i <= Stop(fs, scale) && !Aborts(fs[i], scale)
    ensures i + 1 <= Stop(fs, scale)
    ensures [ClearCanvas] + FeaturesOps(fs[..i + 1], project, scale) ==
      [ClearCanvas] + FeaturesOps(fs[..i], project, scale) + FeatureOps(fs[i], project, scale)
  {
    StopSpec(fs, scale);
    assert fs[..i + 1] == fs[..i] + [fs[i]];
    StopPrefix(fs, i, scale);
    FeaturesOpsSnoc(fs[..i], fs[i], project, scale);
    ConcatAssoc([ClearCanvas], FeaturesOps(fs[..i], project, scale), FeatureOps(fs[i], project, scale));
  }

  /** The turn of the redraw loop that throws: the frame ends with it. */
  lemma ThrowStep(fs: seq<Feature>, i: nat, project: LatLng -> Pixel, scale: real)
    requires i < |fs| && i <= Stop(fs, scale) && Aborts(fs[i], scale)
    ensures Frame(fs, project, scale) == [ClearCanvas] + FeaturesOps(fs[..i], project, scale) + FeatureOps(fs[i], project, scale)
  {
    StopSpec(fs, scale);
    PaintOrder(fs, i, project, scale);
  }

  /** The loop that ran to the end has painted the frame. */
  lemma DrawDone(fs: seq<Feature>, project: LatLng -> Pixel, scale: real)
    ensures Frame(fs, project, scale) == [ClearCanvas] + FeaturesOps(fs[..|fs|], project, scale)
  {
    assert fs[..|fs|] == fs;
  }

  predicate IsClear(op: DrawOp) { op.ClearCanvas? }
  predicate IsMoveTo(op: DrawOp) { op.MoveTo? }
  predicate IsStroke(op: DrawOp) { op.Stroke? }
  predicate IsThrow(op: DrawOp) { op.ArcThrows? }

  /** Count over four consecutive pieces. */
  lemma CountConcat4(a: seq<DrawOp>, b: seq<DrawOp>, c: seq<DrawOp>, d: seq<DrawOp>, isOp: DrawOp -> bool)
    ensures Count(a + b + (c + d), isOp) == Count(a, isOp) + Count(b, isOp) + Count(c, isOp) + Count(d, isOp)
  {
    CountConcat(a + b, c + d, isOp);
    CountConcat(a, b, isOp);
    CountConcat(c, d, isOp);
  }

  /** The dots are neither a clear, a sub-path nor a stroke; they are the
      exception exactly when the width is negative. */
  lemma DotsCounts(f: Feature, project: LatLng -> Pixel, scale: real)
    requires |f.path| > 0
    ensures Count(Dots(f, project, scale), IsClear) == 0
    ensures Count(Dots(f, project, scale), IsMoveTo) == 0
    ensures Count(Dots(f, project, scale), IsStroke) == 0
    ensures Count(Dots(f, project, scale), IsThrow) == (if NegativeWidth(f, scale) then 1 else 0)
  {
    var dots := Dots(f, project, scale);
    if NegativeWidth(f, scale) {
      CountSingle(ArcThrows);
    } else {
      var c0, c1 := dots[0], dots[1];
      assert dots == [c0] + [c1];
      assert c0.Circle? && c1.Circle?;
      CountSingle(c0);
      CountSingle(c1);
      CountConcat([c0], [c1], IsClear);
      CountConcat([c0], [c1], IsMoveTo);
      CountConcat([c0], [c1], IsStroke);
      CountConcat([c0], [c1], IsThrow);
    }
  }

  /** Each non-empty feature is one sub-path (one `moveTo`) stroked once; the
      canvas is not cleared; only an aborting feature throws. */
  lemma FeatureCounts(f: Feature, project: LatLng -> Pixel, scale: real)
    ensures Count(FeatureOps(f, project, scale), IsClear) == 0
    ensures Count(FeatureOps(f, project, scale), IsMoveTo) == (if |f.path| == 0 then 0 else 1)
    ensures Count(FeatureOps(f, project, scale), IsStroke) == (if |f.path| == 0 then 0 else 1)
    ensures Count(FeatureOps(f, project, scale), IsThrow) == (if Aborts(f, scale) then 1 else 0)
  {
    if |f.path| > 0 {
      var head := [SetComposite(CompositeOf(f.erase))];
      var body := PathOps(f.path, project);
      var s := [Stroke(Width(f, scale), f.strokeStyle)];
      var dots := Dots(f, project, scale);
      FeatureOpsSplit(f, project, scale);
      PathCounts(f.path, project);
      DotsCounts(f, project, scale);
      CountSingle(head[0]);
      CountSingle(s[0]);
      CountConcat4(head, body, s, dots, IsClear);
      CountConcat4(head, body, s, dots, IsMoveTo);
      CountConcat4(head, body, s, dots, IsStroke);
      CountConcat4(head, body, s, dots, IsThrow);
    }
  }

  lemma {:induction false} PathCounts(path: seq<LatLng>, project: LatLng -> Pixel)
    ensures Count(PathOps(path, project), IsClear) == 0
    ensures Count(PathOps(path, project), IsStroke) == 0
    ensures Count(PathOps(path, project), IsThrow) == 0
    ensures Count(PathOps(path, project), IsMoveTo) == (if |path| == 0 then 0 else 1)
    decreases |path|
  {
    if path != [] {
      var j := |path| - 1;
      PathCounts(path[..j], project);
      var last := [if j == 0 then MoveTo(project(path[j])) else LineTo(project(path[j]))];
      CountConcat(PathOps(path[..j], project), last, IsClear);
      CountConcat(PathOps(path[..j], project), last, IsStroke);
      CountConcat(PathOps(path[..j], project), last, IsThrow);
      CountConcat(PathOps(path[..j], project), last, IsMoveTo);
    }
  }

  /** The first feature throws: its commands are all there is. */
  lemma FirstAborts(fs: seq<Feature>, project: LatLng -> Pixel, scale: real)
    requires |fs| > 0 && Aborts(fs[0], scale)
    ensures FeaturesOps(fs, project, scale) == FeatureOps(fs[0], project, scale)
    ensures Stop(fs, scale) == 0 && Visited(fs, scale) == 1
    ensures Drawn(fs[..Visited(fs, scale)]) == 1
  {
    assert fs[..1] == [fs[0]] && [fs[0]][1..] == [];
  }

  /** The first feature does not throw: the loop goes on to the rest. */
  lemma FirstPasses(fs: seq<Feature>, scale: real)
    requires |fs| > 0 && !Aborts(fs[0], scale)
    ensures Stop(fs, scale) < |fs| <==> Stop(fs[1..], scale) < |fs[1..]|
    ensures Drawn(fs[..Visited(fs, scale)]) ==
      (if |fs[0].path| == 0 then 0 else 1) + Drawn(fs[1..][..Visited(fs[1..], scale)])
  {
    var v := Visited(fs[1..], scale);
    assert Visited(fs, scale) == v + 1;
    var seen := fs[..v + 1];
    assert seen[0] == fs[0] && seen[1..] == fs[1..][..v];
  }

  /** Across a list of features: one sub-path and one stroke for every
      non-empty feature the loop reaches, no clear, and one exception exactly
      when some feature's drawing throws. */
  lemma {:induction false} OpsCounts(fs: seq<Feature>, project: LatLng -> Pixel, scale: real)
    ensures Count(FeaturesOps(fs, project, scale), IsClear) == 0
    ensures Count(FeaturesOps(fs, project, scale), IsMoveTo) == Drawn(fs[..Visited(fs, scale)])
    ensures Count(FeaturesOps(fs, project, scale), IsStroke) == Drawn(fs[..Visited(fs, scale)])
    ensures Count(FeaturesOps(fs, project, scale), IsThrow) == (if Stop(fs, scale) < |fs| then 1 else 0)
    decreases |fs|
  {
    if fs == [] {
      assert fs[..0] == [];
    } else {
      var head := FeatureOps(fs[0], project, scale);
      FeatureCounts(fs[0], project, scale);
      if Aborts(fs[0], scale) {
        FirstAborts(fs, project, scale);
      } else {
        var tail := FeaturesOps(fs[1..], project, scale);
        OpsCounts(fs[1..], project, scale);
        FirstPasses(fs, scale);
        assert FeaturesOps(fs, project, scale) == head + tail;
        CountConcat(head, tail, IsClear);
        CountConcat(head, tail, IsMoveTo);
        CountConcat(head, tail, IsStroke);
        CountConcat(head, tail, IsThrow);
      }
    }
  }

  /** A frame begins with the one clear of the canvas. It opens a sub-path
      for, and strokes, exactly the non-empty features up to and including the
      first one whose drawing throws (all of them when none throws), and it
      holds the exception exactly when some feature throws. */
  lemma FrameCounts(fs: seq<Feature>, project: LatLng -> Pixel, scale: real)
    ensures Frame(fs, project, scale)[0] == ClearCanvas
    ensures Count(Frame(fs, project, scale), IsClear) == 1
    ensures Count(Frame(fs, project, scale), IsMoveTo) == Drawn(fs[..Visited(fs, scale)])
    ensures Count(Frame(fs, project, scale), IsStroke) == Drawn(fs[..Visited(fs, scale)])
    ensures Count(Frame(fs, project, scale), IsThrow) == (if Stop(fs, scale) < |fs| then 1 else 0)
    ensures (forall k :: 0 <= k < |fs| ==> !Aborts(fs[k], scale)) ==> Visited(fs, scale) == |fs|
  {
    assert (forall k :: 0 <= k < |fs| ==> !Aborts(fs[k], scale)) ==> Visited(fs, scale) == |fs| by {
      StopSpec(fs, scale);
    }
    OpsCounts(fs, project, scale);
    CountSingle(ClearCanvas);
    CountConcat([ClearCanvas], FeaturesOps(fs, project, scale), IsClear);
    CountConcat([ClearCanvas], FeaturesOps(fs, project, scale), IsMoveTo);
    CountConcat([ClearCanvas], FeaturesOps(fs, project, scale), IsStroke);
    CountConcat([ClearCanvas], FeaturesOps(fs, project, scale), IsThrow);
  }

  /** The body of `onDrawLayer`'s feature loop: the commands for one feature,
      and whether its first `arc` threw. */
  method DrawFeature(feature: Feature, project: LatLng -> Pixel, scale: real) returns (ops: seq<DrawOp>, threw: bool)
    ensures ops == FeatureOps(feature, project, scale)
    ensures threw <==> Aborts(feature, scale)
  {
    ops, threw := [], false;
    if |feature.path| == 0 {
      return;
    }
    var lineWidth := feature.lineWidth as real * scale;
    ops := [SetComposite(if feature.erase then DestinationOut else SourceOver)];
    for j := 0 to |feature.path|
      invariant ops == [SetComposite(CompositeOf(feature.erase))] + PathOps(feature.path[..j], project)
    {
      assert feature.path[..j + 1][..j] == feature.path[..j];
      var dot := project(feature.path[j]);
      ops := ops + [if j != 0 then LineTo(dot) else MoveTo(dot)];
    }
    assert feature.path[..|feature.path|] == feature.path;
    ghost var traced := ops;
    ops := ops + [Stroke(lineWidth, feature.strokeStyle)];
    var dots: seq<DrawOp>;
    assert lineWidth == Width(feature, scale);
    if lineWidth / 2.0 < 0.0 {
      // the first `arc` rejects the negative radius
      dots, threw := [ArcThrows], true;
    } else {
      var first := project(feature.path[0]);
      var last := project(feature.path[|feature.path| - 1]);
      dots := [Circle(first, lineWidth / 2.0, feature.strokeStyle), Circle(last, lineWidth / 2.0, feature.strokeStyle)];
    }
    ops := ops + dots;
    FeatureOpsSplit(feature, project, scale);
    assert dots == Dots(feature, project, scale);
    assert ops == traced + ([Stroke(Width(feature, scale), feature.strokeStyle)] + dots);
  }
}

=== FILE: seqs.dfy ===
/** General facts about sequences that the proofs of the other modules use. */
module Seqs {

  /** Concatenation regroups freely. */
  lemma ConcatAssoc<T>(a: seq<T>, b: seq<T>, c: seq<T>)
    ensures a + (b + c) == a + b + c
  {
  }
}

=== FILE: snap.dfy ===
/** The cell snap of `App.prototype.addMarker` and of the marker's `dragend`
    handler: `v - (v % cellSize) + cellSize / 2`, applied to both coordinates,
    where `%` is JavaScript's remainder (truncating, sign of the dividend). */
module Snap {
  import opened Geo

  /** Rounding toward zero. */
  function Trunc(x: real): (n: int)
    ensures x >= 0.0 ==> n == x.Floor && n as real <= x < n as real + 1.0
    ensures x < 0.0 ==> n as real - 1.0 < x <= n as real
  {
    if x >= 0.0 then x.Floor else -((-x).Floor)
  }

  /** JavaScript's `v % c` for a positive divisor: what is left of `v` after
      removing whole multiples of `c` toward zero; it keeps the sign of `v`. */
  function JsRem(v: real, c: real): (r: real)
    requires c > 0.0
    ensures v >= 0.0 ==> 0.0 <= r < c
    ensures v < 0.0 ==> -c < r <= 0.0
    ensures ((v - r) / c).Floor as real == (v - r) / c
  {
    var t := Trunc(v / c);
    QuotBounds(v, c, 0.0);
    QuotBounds(v, c, t as real);
    var m := c * t as real;
    MulDiv(c, t);
    assert v - (v - m) == m;
    v - m
  }

  /** Dividing a whole multiple of `c` by `c` gives back the whole factor. */
  lemma MulDiv(c: real, t: int)
    requires c > 0.0
    ensures (c * t as real) / c == t as real
    ensures ((c * t as real) / c).Floor == t
  {
  }

  /** A positive factor keeps the sign of the other. */
  lemma Pos(c: real, d: real)
    requires c > 0.0
    ensures d > 0.0 <==> c * d > 0.0
    ensures d >= 0.0 <==> c * d >= 0.0
  {
    if d < 0.0 { assert c * (-d) > 0.0; }
  }

  /** For `v == c * x` with `c > 0`, comparing `x` with `q` is comparing `v`
      with `c * q`; this and the next three lemmas are the four bounds
      `JsRem` needs. */
  lemma LowerOpen(x: real, v: real, c: real, q: real)
    requires c > 0.0 && c * x == v
    ensures q - 1.0 < x <==> c * q - c < v
  {
    var d := x - (q - 1.0);
    var e := v - (c * q - c);
    assert c * d == e;
    Pos(c, d);
  }

  lemma UpperOpen(x: real, v: real, c: real, q: real)
    requires c > 0.0 && c * x == v
    ensures x < q + 1.0 <==> v < c * q + c
  {
    var d := q + 1.0 - x;
    var e := c * q + c - v;
    assert c * d == e;
    Pos(c, d);
  }

  lemma LowerClosed(x: real, v: real, c: real, q: real)
    requires c > 0.0 && c * x == v
    ensures q <= x <==> c * q <= v
  {
    var d := x - q;
    var e := v - c * q;
    assert c * d == e;
    Pos(c, d);
  }

  lemma UpperClosed(x: real, v: real, c: real, q: real)
    requires c > 0.0 && c * x == v
    ensures x <= q <==> v <= c * q
  {
    var d := q - x;
    var e := c * q - v;
    assert c * d == e;
    Pos(c, d);
  }

  /** Bounds on a quotient `v / c` are bounds on `v` scaled by `c`. */
  lemma QuotBounds(v: real, c: real, q: real)
    requires c > 0.0
    ensures q <= v / c <==> c * q <= v
    ensures v / c < q + 1.0 <==> v < c * q + c
    ensures v / c <= q <==> v <= c * q
    ensures q - 1.0 < v / c <==> c * q - c < v
  {
    var x := v / c;
    assert c * x == v;
    LowerClosed(x, v, c, q);
    UpperClosed(x, v, c, q);
    UpperOpen(x, v, c, q);
    LowerOpen(x, v, c, q);
  }

  /** The index of the grid cell that contains `v`: floor(v / cellSize). */
  function Cell(v: real, cellSize: int): int
    requires cellSize > 0
  {
    (v / cellSize as real).Floor
  }

  /** The centre of cell `m` lies midway between its two boundaries. */
  lemma Midway(m: int, cellSize: int)
    ensures Centre(m, cellSize) == ((m * cellSize) as real + ((m + 1) * cellSize) as real) / 2.0
  {
    assert (m + 1) * cellSize == m * cellSize + cellSize;
  }

  /** `v` lies on a cell boundary: a whole multiple of `cellSize`. */
  predicate OnLine(v: real, cellSize: int)
    requires cellSize > 0
  {
    Cell(v, cellSize) as real == v / cellSize as real
  }

  /** The centre of cell `k`, counted from 0. */
  function Centre(k: int, cellSize: int): real {
    (k * cellSize) as real + (cellSize as real) / 2.0
  }

  /** Truncating `v / c` is flooring it, except for a negative `v` strictly
      inside a cell, where it is one more. */
  lemma TruncCell(v: real, cellSize: int)
    requires cellSize > 0
    ensures Trunc(v / cellSize as real) == Cell(v, cellSize) + (if v < 0.0 && !OnLine(v, cellSize) then 1 else 0)
  {
    var c := cellSize as real;
    QuotBounds(v, c, 0.0);
  }

  /** The snapped coordinate: the centre of the cell that contains `v`, except
      that a negative `v` strictly inside a cell goes to the centre of the
      cell above it, because `%` truncates toward zero. */
  function SnapCoord(v: real, cellSize: int): (r: real)
    requires cellSize > 0
    ensures r == Centre(Cell(v, cellSize) + (if v < 0.0 && !OnLine(v, cellSize) then 1 else 0), cellSize)
  {
    var c := cellSize as real;
    TruncCell(v, cellSize);
    var t := Trunc(v / c);
    assert (t * cellSize) as real == c * t as real;
    v - JsRem(v, c) + c / 2.0
  }

  /** `addMarker` and `dragend`: both coordinates of a marker position go to
      a cell centre, the centre of the cell that contains a non-negative one. */
  function SnapLatLng(p: LatLng, cellSize: int): (r: LatLng)
    requires cellSize > 0
    ensures p.lat >= 0.0 ==> r.lat == Centre(Cell(p.lat, cellSize), cellSize)
    ensures p.lng >= 0.0 ==> r.lng == Centre(Cell(p.lng, cellSize), cellSize)
    ensures p.lat < 0.0 ==> r.lat == Centre(Cell(p.lat, cellSize) + (if OnLine(p.lat, cellSize) then 0 else 1), cellSize)
    ensures p.lng < 0.0 ==> r.lng == Centre(Cell(p.lng, cellSize) + (if OnLine(p.lng, cellSize) then 0 else 1), cellSize)
  {
    LatLng(SnapCoord(p.lat, cellSize), SnapCoord(p.lng, cellSize))
  }

  /** For a non-negative coordinate the snap yields floor(v / c) * c + c / 2:
      the centre of the cell that contains `v`. */
  lemma SnapIsCellCentre(v: real, cellSize: int)
    requires v >= 0.0 && cellSize > 0
    ensures SnapCoord(v, cellSize) == (Cell(v, cellSize) * cellSize) as real + (cellSize as real) / 2.0
    ensures Cell(SnapCoord(v, cellSize), cellSize) == Cell(v, cellSize)
  {
    var c := cellSize as real;
    var q := Cell(v, cellSize);
    var s := SnapCoord(v, cellSize);
    var cq := c * q as real;
    assert (q * cellSize) as real == cq;
    assert s == cq + c / 2.0;
    QuotBounds(s, c, q as real);
  }

  /** Snapping a non-negative coordinate twice gives what snapping once gives. */
  lemma SnapIdempotent(v: real, cellSize: int)
    requires v >= 0.0 && cellSize > 0
    ensures SnapCoord(SnapCoord(v, cellSize), cellSize) == SnapCoord(v, cellSize)
  {
    SnapIsCellCentre(v, cellSize);
    var s := SnapCoord(v, cellSize);
    assert s >= 0.0;
    SnapIsCellCentre(s, cellSize);
  }

  /** A marker position in the first quadrant stays there, and snapping it
      again does not move it: the `dragend` re-snap of an unmoved marker is a
      no-op. */
  lemma SnapLatLngIdempotent(p: LatLng, cellSize: int)
    requires p.lat >= 0.0 && p.lng >= 0.0 && cellSize > 0
    ensures SnapLatLng(SnapLatLng(p, cellSize), cellSize) == SnapLatLng(p, cellSize)
    ensures Cell(SnapLatLng(p, cellSize).lat, cellSize) == Cell(p.lat, cellSize)
    ensures Cell(SnapLatLng(p, cellSize).lng, cellSize) == Cell(p.lng, cellSize)
  {
    SnapIdempotent(p.lat, cellSize);
    SnapIdempotent(p.lng, cellSize);
    SnapIsCellCentre(p.lat, cellSize);
    SnapIsCellCentre(p.lng, cellSize);
  }

  /** Left of (or below) the origin the truncating remainder rounds toward
      zero instead of down: a coordinate in (-c, 0) snaps to c / 2, the centre
      of cell 0, not of the cell -1 that contains it. */
  lemma SnapJustBelowOrigin(v: real, cellSize: int)
    requires cellSize > 0 && -(cellSize as real) < v < 0.0
    ensures SnapCoord(v, cellSize) == (cellSize as real) / 2.0
    ensures Cell(v, cellSize) == -1
  {
    var c := cellSize as real;
    QuotBounds(v, c, 0.0);
    assert Trunc(v / c) == 0;
  }

  /** For negative coordinates the snap is not idempotent: with 100-unit cells
      -150 snaps to -50, and -50 snaps on to 50. */
  lemma SnapNotIdempotentBelowZero()
    ensures SnapCoord(-150.0, 100) == -50.0
    ensures SnapCoord(SnapCoord(-150.0, 100), 100) == 50.0
  {
    assert Trunc(-150.0 / 100.0) == -1;
    assert Trunc(-50.0 / 100.0) == 0;
  }
}

=== FILE: strokes.dfy ===
/** The stroke store and input router of `L.PaintLayer`, as a pure state
    machine: the values the layer holds, one transition per handler, and the
    invariants the handlers keep. The class in paint_layer.dfy is proved
    against `Step`. */
module Strokes {
  import opened Geo
  import opened Seqs

  /** The layer's default style (`this.settings`). */
  datatype Settings = Settings(lineWidth: int, strokeStyle: string, erase: bool)

  /** One stroke record: a style snapshot and the path of map coordinates. */
  datatype Feature = Feature(erase: bool, lineWidth: int, strokeStyle: string, path: seq<LatLng>)

  /** One key/value pair of the object handed to `applySettings`. */
  datatype Setting = LineWidth(width: int) | StrokeStyle(color: string) | Erase(on: bool)

  /** The whole observable state of a paint layer. */
  datatype Layer = Layer(features: seq<Feature>, settings: Settings, painting: bool, mouseDown: bool)

  /** The handlers and public methods that change a paint layer. */
  datatype Event =
    | MouseDown
    | MouseUp
    | MouseMove(at: LatLng)
    | Enable
    | Disable
    | EnableErase
    | DisableErase
    | ApplySettings(entries: seq<Setting>)
    | Clear

  /** The style `initialize` installs. */
  const DefaultSettings := Settings(4, "#000000", false)

  /** The feature's style fields are those of `s`. */
  predicate StyledBy(f: Feature, s: Settings) {
    StyleOf(f) == s
  }

  /** A feature's style fields, as a settings record. */
  function StyleOf(f: Feature): Settings {
    Settings(f.lineWidth, f.strokeStyle, f.erase)
  }

  /** `_makeFeature`: a fresh, empty stroke carrying a by-value copy of the settings. */
  function MakeFeature(s: Settings): (f: Feature)
    ensures f.path == [] && StyledBy(f, s)
  {
    Feature(s.erase, s.lineWidth, s.strokeStyle, [])
  }

  /** The active stroke: the last element of `features`. */
  function Active(fs: seq<Feature>): Feature
    requires |fs| >= 1
  {
    fs[|fs| - 1]
  }

  /** The sealed strokes: every element but the last. */
  function Sealed(fs: seq<Feature>): seq<Feature>
    requires |fs| >= 1
  {
    fs[..|fs| - 1]
  }

  /** Writes one key into the settings record (`this.settings[i] = settings[i]`):
      the entry's key takes the entry's value, and the other two keys keep theirs. */
  function SetSetting(s: Settings, e: Setting): (r: Settings)
    ensures r.lineWidth == (if e.LineWidth? then e.width else s.lineWidth)
    ensures r.strokeStyle == (if e.StrokeStyle? then e.color else s.strokeStyle)
    ensures r.erase == (if e.Erase? then e.on else s.erase)
  {
    match e
    case LineWidth(w) => s.(lineWidth := w)
    case StrokeStyle(c) => s.(strokeStyle := c)
    case Erase(b) => s.(erase := b)
  }

  /** Writes one key into a feature (`features[last][i] = settings[i]`): the
      style changes exactly as a settings record would, and the path stays. */
  function SetFeatureKey(f: Feature, e: Setting): (r: Feature)
    ensures r.path == f.path
    ensures StyledBy(r, SetSetting(StyleOf(f), e))
  {
    match e
    case LineWidth(w) => f.(lineWidth := w)
    case StrokeStyle(c) => f.(strokeStyle := c)
    case Erase(b) => f.(erase := b)
  }

  /** The settings after writing every entry, in order; the last entry is
      in force, so writing it once more changes nothing. */
  function ApplyToSettings(s: Settings, es: seq<Setting>): (r: Settings)
    ensures es != [] ==> SetSetting(r, es[|es| - 1]) == r
    decreases |es|
  {
    if es == [] then s else SetSetting(ApplyToSettings(s, es[..|es| - 1]), es[|es| - 1])
  }

  /** A feature after writing every entry, in order; its path is never touched. */
  function ApplyToFeature(f: Feature, es: seq<Setting>): (r: Feature)
    ensures r.path == f.path
    decreases |es|
  {
    if es == [] then f else SetFeatureKey(ApplyToFeature(f, es[..|es| - 1]), es[|es| - 1])
  }

  /** The store after `mousemove` accepted point `p`: only the active path grows. */
  function AppendToActive(fs: seq<Feature>, p: LatLng): (r: seq<Feature>)
    requires |fs| >= 1
    ensures |r| == |fs| && Sealed(r) == Sealed(fs)
    ensures Active(r).path == Active(fs).path + [p]
    ensures Active(r).(path := []) == Active(fs).(path := [])
  {
    Sealed(fs) + [Active(fs).(path := Active(fs).path + [p])]
  }

  /** The store after `mouseup`: a fresh stroke is pushed only if the active path is non-empty. */
  function Seal(fs: seq<Feature>, s: Settings): (r: seq<Feature>)
    requires |fs| >= 1
    ensures |r| == |fs| + (if |Active(fs).path| != 0 then 1 else 0)
    ensures |Active(fs).path| != 0 ==>
      Sealed(r) == fs && Active(r).path == [] && StyledBy(Active(r), s)
    ensures |Active(fs).path| == 0 ==> r == fs
  {
    if |Active(fs).path| != 0 then fs + [MakeFeature(s)] else fs
  }

  /** The store after `applySettings(es)`: only the active stroke's style changes. */
  function Restyle(fs: seq<Feature>, es: seq<Setting>): (r: seq<Feature>)
    requires |fs| >= 1
    ensures |r| == |fs| && Sealed(r) == Sealed(fs)
    ensures Active(r).path == Active(fs).path
  {
    Sealed(fs) + [ApplyToFeature(Active(fs), es)]
  }

  /** The state `initialize` builds: one empty stroke in the default style,
      not painting, button up. */
  function Init(): (l: Layer)
    ensures |l.features| == 1 && l.features[0].path == []
    ensures l.settings == DefaultSettings && StyledBy(l.features[0], DefaultSettings)
    ensures !l.painting && !l.mouseDown
  {
    Layer([MakeFeature(DefaultSettings)], DefaultSettings, false, false)
  }

  /** The layer's invariant: the store is never empty, and the active stroke
      carries the current settings. */
  predicate Valid(l: Layer) {
    |l.features| >= 1 && StyledBy(Active(l.features), l.settings)
  }

  /** One handler or public method, as it changes the layer. Only `enable`
      and `disable` switch painting, only style changes touch the settings,
      only the button handlers move the button flag, and neither these nor
      `mousedown` touch the strokes. */
  function Step(l: Layer, e: Event): (r: Layer)
    requires |l.features| >= 1
    ensures |r.features| >= 1
    ensures e.Enable? ==> r.painting
    ensures e.Disable? ==> !r.painting
    ensures !e.Enable? && !e.Disable? ==> r.painting == l.painting
    ensures !e.EnableErase? && !e.DisableErase? && !e.ApplySettings? ==> r.settings == l.settings
    ensures !e.MouseDown? && !e.MouseUp? ==> r.mouseDown == l.mouseDown
    ensures e.Enable? || e.Disable? || e.MouseDown? ==> r.features == l.features
  {
    match e
    case MouseDown =>
      if l.painting then l.(mouseDown := true) else l
    case MouseUp =>
      if l.painting then l.(mouseDown := false, features := Seal(l.features, l.settings)) else l
    case MouseMove(p) =>
      if l.painting && l.mouseDown then l.(features := AppendToActive(l.features, p)) else l
    case Enable => l.(painting := true)
    case Disable => l.(painting := false)
    case EnableErase =>
      l.(settings := SetSetting(l.settings, Erase(true)), features := Restyle(l.features, [Erase(true)]))
    case DisableErase =>
      l.(settings := SetSetting(l.settings, Erase(false)), features := Restyle(l.features, [Erase(false)]))
    case ApplySettings(es) =>
      l.(settings := ApplyToSettings(l.settings, es), features := Restyle(l.features, es))
    case Clear => l.(features := [MakeFeature(l.settings)])
  }

  /** A sequence of events, delivered one after another. */
  function Run(l: Layer, es: seq<Event>): (r: Layer)
    requires |l.features| >= 1
    ensures |r.features| >= 1
    decreases |es|
  {
    if es == [] then l else Run(Step(l, es[0]), es[1..])
  }

  /** The points a run appends to the active stroke: the position of every
      `mousemove` that arrives while painting with the button down. */
  function AcceptedMoves(l: Layer, es: seq<Event>): seq<LatLng>
    requires |l.features| >= 1
    decreases |es|
  {
    if es == [] then []
    else
      (if es[0].MouseMove? && l.painting && l.mouseDown then [es[0].at] else [])
      + AcceptedMoves(Step(l, es[0]), es[1..])
  }

  /** Writing the same entries to a matching feature and settings record keeps them matching. */
  lemma {:induction false} ApplyKeepsStyle(f: Feature, s: Settings, es: seq<Setting>)
    requires StyledBy(f, s)
    ensures StyledBy(ApplyToFeature(f, es), ApplyToSettings(s, es))
    decreases |es|
  {
    if es != [] {
      ApplyKeepsStyle(f, s, es[..|es| - 1]);
    }
  }

  /** Keys absent from the entries keep their value. */
  lemma {:induction false} ApplyAbsentKeeps(s: Settings, es: seq<Setting>)
    ensures (forall k :: 0 <= k < |es| ==> !es[k].LineWidth?) ==> ApplyToSettings(s, es).lineWidth == s.lineWidth
    ensures (forall k :: 0 <= k < |es| ==> !es[k].StrokeStyle?) ==> ApplyToSettings(s, es).strokeStyle == s.strokeStyle
    ensures (forall k :: 0 <= k < |es| ==> !es[k].Erase?) ==> ApplyToSettings(s, es).erase == s.erase
    decreases |es|
  {
    if es != [] {
      ApplyAbsentKeeps(s, es[..|es| - 1]);
    }
  }

  /** A key given in the entries ends with the last value given for it. */
  lemma {:induction false} ApplyLastWins(s: Settings, es: seq<Setting>, k: nat)
    requires k < |es|
    ensures es[k].LineWidth? && (forall j :: k < j < |es| ==> !es[j].LineWidth?) ==>
      ApplyToSettings(s, es).lineWidth == es[k].width
    ensures es[k].StrokeStyle? && (forall j :: k < j < |es| ==> !es[j].StrokeStyle?) ==>
      ApplyToSettings(s, es).strokeStyle == es[k].color
    ensures es[k].Erase? && (forall j :: k < j < |es| ==> !es[j].Erase?) ==>
      ApplyToSettings(s, es).erase == es[k].on
    decreases |es|
  {
    var n := |es| - 1;
    if k < n {
      ApplyLastWins(s, es[..n], k);
      assert forall j :: k < j < n ==> es[..n][j] == es[j];
    }
  }

  /** `enableErase` and `disableErase` set the erase flag to `on` in the
      settings and in the active stroke; width, colour, the path, the sealed
      strokes and both flags stay as they were. */
  lemma EraseToggle(l: Layer, on: bool)
    requires |l.features| >= 1
    ensures var r := Step(l, if on then EnableErase else DisableErase);
      r.settings == l.settings.(erase := on) &&
      |r.features| == |l.features| &&
      Sealed(r.features) == Sealed(l.features) &&
      Active(r.features) == Active(l.features).(erase := on) &&
      r.painting == l.painting && r.mouseDown == l.mouseDown
  {
    assert [Erase(on)][..0] == [];
  }

  /** `clear` leaves exactly one empty stroke styled by the settings, and
      changes nothing else. */
  lemma ClearIsFresh(l: Layer)
    requires Valid(l)
    ensures Step(l, Clear).features == [MakeFeature(l.settings)]
    ensures Valid(Step(l, Clear))
    ensures Step(l, Clear).features[0].path == []
    ensures Step(l, Clear).settings == l.settings
    ensures Step(l, Clear).painting == l.painting && Step(l, Clear).mouseDown == l.mouseDown
  {
  }

  /** Every transition keeps the invariant. */
  lemma StepValid(l: Layer, e: Event)
    requires Valid(l)
    ensures Valid(Step(l, e))
  {
    match e
    case EnableErase => ApplyKeepsStyle(Active(l.features), l.settings, [Erase(true)]);
    case DisableErase => ApplyKeepsStyle(Active(l.features), l.settings, [Erase(false)]);
    case ApplySettings(es) => ApplyKeepsStyle(Active(l.features), l.settings, es);
    case _ =>
  }

  /** Every run of events keeps the invariant. */
  lemma {:induction false} RunValid(l: Layer, es: seq<Event>)
    requires Valid(l)
    ensures Valid(Run(l, es))
    decreases |es|
  {
    if es != [] {
      StepValid(l, es[0]);
      RunValid(Step(l, es[0]), es[1..]);
    }
  }

  /** History: apart from `clear`, a transition never removes or alters a
      sealed stroke, and grows the store by at most one, only on a `mouseup`
      while painting with a non-empty active path. */
  lemma StepKeepsHistory(l: Layer, e: Event)
    requires |l.features| >= 1
    requires !e.Clear?
    ensures var n := |Step(l, e).features|;
      n == |l.features| || n == |l.features| + 1
    ensures Sealed(l.features) <= Step(l, e).features
    ensures |Step(l, e).features| == |l.features| + 1 <==>
      e.MouseUp? && l.painting && |Active(l.features).path| != 0
  {
  }

  /** Over any run without `clear`, the sealed strokes stay in place, unchanged. */
  lemma {:induction false} RunKeepsHistory(l: Layer, es: seq<Event>)
    requires |l.features| >= 1
    requires forall k :: 0 <= k < |es| ==> !es[k].Clear?
    ensures |Run(l, es).features| >= |l.features|
    ensures Sealed(l.features) <= Run(l, es).features
    decreases |es|
  {
    if es != [] {
      var l' := Step(l, es[0]);
      StepKeepsHistory(l, es[0]);
      RunKeepsHistory(l', es[1..]);
      assert Sealed(l.features) <= Sealed(l'.features);
    }
  }

  /** `mousemove` changes the layer exactly when painting with the button down,
      and then only by appending its position to the active path. */
  lemma MoveGate(l: Layer, p: LatLng)
    requires |l.features| >= 1
    ensures Step(l, MouseMove(p)) != l <==> l.painting && l.mouseDown
    ensures var r := Step(l, MouseMove(p));
      r.settings == l.settings && r.painting == l.painting && r.mouseDown == l.mouseDown &&
      |r.features| == |l.features| && Sealed(r.features) == Sealed(l.features) &&
      Active(r.features).lineWidth == Active(l.features).lineWidth &&
      Active(r.features).strokeStyle == Active(l.features).strokeStyle &&
      Active(r.features).erase == Active(l.features).erase &&
      Active(r.features).path == Active(l.features).path + (if l.painting && l.mouseDown then [p] else [])
  {
    if l.painting && l.mouseDown {
      assert |Active(Step(l, MouseMove(p)).features).path| == |Active(l.features).path| + 1;
    }
  }

  /** `mousedown` arms the button flag only while painting. */
  lemma DownGate(l: Layer)
    requires |l.features| >= 1
    ensures Step(l, MouseDown).mouseDown == (l.mouseDown || l.painting)
    ensures Step(l, MouseDown).features == l.features
    ensures Step(l, MouseDown).settings == l.settings && Step(l, MouseDown).painting == l.painting
  {
  }

  /** Outside draw mode the button handlers change nothing at all. */
  lemma IdleIgnoresButtons(l: Layer)
    requires |l.features| >= 1
    requires !l.painting
    ensures Step(l, MouseUp) == l
    ensures Step(l, MouseDown) == l
  {
  }

  /** `mouseup` while painting releases the button; the active stroke is sealed
      and a fresh stroke styled by the settings becomes active iff the active
      path was non-empty. */
  lemma MouseUpSeals(l: Layer)
    requires Valid(l)
    requires l.painting
    ensures var r := Step(l, MouseUp);
      !r.mouseDown && r.settings == l.settings && r.painting &&
      Active(r.features).path == [] && StyledBy(Active(r.features), l.settings) &&
      (|Active(l.features).path| != 0 ==> Sealed(r.features) == l.features) &&
      (|Active(l.features).path| == 0 ==> r.features == l.features)
  {
  }

  /** A second `mouseup` changes nothing. */
  lemma MouseUpIdempotent(l: Layer)
    requires |l.features| >= 1
    ensures Step(Step(l, MouseUp), MouseUp) == Step(l, MouseUp)
  {
  }

  /** Style changes reach the settings and the active stroke only; sealed
      strokes and every path keep their values. */
  lemma {:induction false} RestyleKeepsSealed(l: Layer, es: seq<Setting>)
    requires Valid(l)
    ensures var r := Step(l, ApplySettings(es));
      |r.features| == |l.features| &&
      Sealed(r.features) == Sealed(l.features) &&
      Active(r.features).path == Active(l.features).path &&
      r.painting == l.painting && r.mouseDown == l.mouseDown &&
      r.settings == ApplyToSettings(l.settings, es) &&
      StyledBy(Active(r.features), r.settings)
  {
    ApplyKeepsStyle(Active(l.features), l.settings, es);
  }

  /** Apart from `mouseup` and `clear`, a transition keeps the number of
      strokes and extends the active path by the position of an accepted
      `mousemove`, and by nothing otherwise. */
  lemma StepActivePath(l: Layer, e: Event)
    requires |l.features| >= 1
    requires !e.Clear? && !e.MouseUp?
    ensures |Step(l, e).features| == |l.features|
    ensures Active(Step(l, e).features).path ==
      Active(l.features).path + (if e.MouseMove? && l.painting && l.mouseDown then [e.at] else [])
  {
    assert Active(l.features).path + [] == Active(l.features).path;
  }

  /** While no `mouseup` or `clear` arrives, the active path collects exactly
      the accepted `mousemove` positions, in order. */
  lemma {:induction false} ActiveCollectsMoves(l: Layer, es: seq<Event>)
    requires |l.features| >= 1
    requires forall k :: 0 <= k < |es| ==> !es[k].Clear? && !es[k].MouseUp?
    ensures |Run(l, es).features| == |l.features|
    ensures Active(Run(l, es).features).path == Active(l.features).path + AcceptedMoves(l, es)
    decreases |es|
  {
    if es != [] {
      var l', rest := Step(l, es[0]), es[1..];
      var moved := if es[0].MouseMove? && l.painting && l.mouseDown then [es[0].at] else [];
      var path := Active(l.features).path;
      assert |l'.features| == |l.features| && Active(l'.features).path == path + moved by {
        StepActivePath(l, es[0]);
      }
      assert forall k :: 0 <= k < |rest| ==> !rest[k].Clear? && !rest[k].MouseUp? by {
        assert forall k :: 0 <= k < |rest| ==> rest[k] == es[k + 1];
      }
      ActiveCollectsMoves(l', rest);
      var later := AcceptedMoves(l', rest);
      assert Run(l, es) == Run(l', rest);
      assert AcceptedMoves(l, es) == moved + later;
      ConcatAssoc(path, moved, later);
    }
  }

  /** Press, drag through two points and release in draw mode: one sealed
      two-point stroke followed by a fresh empty active stroke. */
  lemma DrawTwoPoints(p1: LatLng, p2: LatLng)
    ensures Run(Init(), [Enable, MouseDown, MouseMove(p1), MouseMove(p2), MouseUp]).features ==
      [Feature(false, 4, "#000000", [p1, p2]), MakeFeature(DefaultSettings)]
  {
    var f0 := MakeFeature(DefaultSettings);
    var l1 := Step(Init(), Enable);
    assert l1 == Layer([f0], DefaultSettings, true, false);
    var l2 := Step(l1, MouseDown);
    assert l2 == Layer([f0], DefaultSettings, true, true);
    var l3 := Step(l2, MouseMove(p1));
    assert Sealed([f0]) == [] && f0.path + [p1] == [p1];
    assert l3 == Layer([f0.(path := [p1])], DefaultSettings, true, true);
    var l4 := Step(l3, MouseMove(p2));
    assert Sealed(l3.features) == [] && [p1] + [p2] == [p1, p2];
    assert l4 == Layer([f0.(path := [p1, p2])], DefaultSettings, true, true);
    var l5 := Step(l4, MouseUp);
    assert l5.features == [f0.(path := [p1, p2])] + [f0] == [f0.(path := [p1, p2]), f0];
    var es := [Enable, MouseDown, MouseMove(p1), MouseMove(p2), MouseUp];
    assert es[1..] == [MouseDown, MouseMove(p1), MouseMove(p2), MouseUp];
    assert Run(l5, []) == l5;
    assert Run(l4, [MouseUp]) == l5;
    assert Run(l3, [MouseMove(p2), MouseUp]) == l5;
    assert Run(l2, [MouseMove(p1), MouseMove(p2), MouseUp]) == l5;
    assert Run(l1, es[1..]) == l5;
  }
}
